=== FILE: README.md ===
# Feature-preserving mesh smoother: a Dafny model

This project models the core of cinolib's `mesh_smoother` (`include/cinolib/smoother.cpp`). The smoother moves the vertices of a polygon mesh to smooth it. Each iteration solves a weighted least-squares system, and the system keeps user-marked feature lines and corners in place. The parts modelled are:

- **Labelling** (`label_features`). Every vertex is labelled by the number of marked edges around it: 0 gives REGULAR, 2 gives FEATURE, and any other count gives CORNER.
- **The row builders.** Each builder appends rows, weights, right-hand sides and matrix triplets to a shared system (`Builder`):
  - `laplacian_term` adds the 3nv smoothing rows;
  - `smooth_on_tangent_space` adds one tangent-plane row per incident face of a REGULAR vertex;
  - `smooth_on_tangent_line` gives a FEATURE vertex an auxiliary unknown t, records it in `feature_data`, and adds four rows;
  - `hold_corner` adds three pinning rows.
- **One build phase.** This is the smoothing term followed by a label dispatch for every vertex. It produces a matrix sized `row × (3nv + |feature_data|)`.
- **The scatter.** This writes the solution back to the vertices. A REGULAR or CORNER vertex reads `res[vid]`, `res[nv+vid]` and `res[2nv+vid]`. A FEATURE vertex moves to `p + dir·res[col_t]`. Reprojection is optional.
- **The iteration loop.** The labels are computed once, before the loop.

Unknowns are laid out as follows: x coordinates in `[0, nv)`, y in `[nv, 2nv)`, z in `[2nv, 3nv)`, then one column per FEATURE vertex from `3nv` on.

Modules, in dependency order:

| file | module | contents |
|---|---|---|
| `geometry.dfy` | `Geometry` | exact 3-D vectors |
| `mesh.dfy` | `Meshes` | the mesh as the smoother reads it: positions, incident edges (mark, far end) in adjacency order, incident face normals |
| `labels.dfy` | `Labels` | `label_features` |
| `system.dfy` | `SparseSystem` | the shared system state, its bookkeeping invariant, appending rows, and what it means for a vector to satisfy rows |
| `rows.dfy` | `RowBuilders` | the four row builders |
| `buildspec.dfy` | `BuildSpec` | what a build phase must produce, stated without the builders: row totals per label, the feature vertices, and the two-pass column assignment |
| `assembly.dfy` | `Assembly` | the dispatch and the build loop |
| `rest.dfy` | `RestState` | the "rest" vector (every vertex where it is, every t = 0) and the rows it satisfies |
| `smoother.dfy` | `Smoother` | scatter, one iteration, `mesh_smoother` |

Some behaviour is taken as given rather than modelled:

- The Laplacian triplets, the least-squares solve, vector normalisation and the two closest-point queries are function parameters.
- The build loop does not read the mesh directly. It reads per-vertex data gathered from it (`Assembly.Gather`): label, position, incident face normals, and the positions of the marked neighbours.
- Face normals are read from the mesh and never recomputed. The loop does not update them after moving vertices, so the model carries them unchanged from one iteration to the next.

Some behaviour of the code is worth stating explicitly, because the model follows it:

- **Write order in the scatter.** The code writes each vertex in place inside the scatter loop. Each vertex is written once, and the FEATURE branch reads only its own, not yet written, position. So the in-place loop equals computing every new position from the old ones, which is how `Smoother.Scatter` is written.
- **Solver failure.** The code does not check whether the least-squares solve succeeded, so the solver is a total function here.
- **Topology violations.** A malformed feature topology is caught only by the `assert` statements at lines 132 and 142. They become preconditions here, and `Labels.LabelFeaturesSatisfyTopology` shows the labelling always meets them.
- **Iteration count.** The code runs zero iterations when `n_iters` is 0, and so does `Smoother.Iterate`.

## Model

| member | source | states |
|---|---|---|
| Labels.LabelOf | include/cinolib/smoother.cpp:223-228 | a count of 0 gives REGULAR and only 0 does; a count of 2 gives FEATURE and only 2 does; every other count gives CORNER |
| Labels.LabelFeatures | include/cinolib/smoother.cpp:214-230 | one label per vertex; each vertex gets REGULAR, FEATURE or CORNER exactly when its number of marked incident edges is 0, 2, or neither |
| Meshes.MarkedCount | include/cinolib/smoother.cpp:218-222 | the count of marked incident edges is at most the number of incident edges, and it is 0 exactly when no incident edge is marked |
| Meshes.MarkedNeighbours | include/cinolib/smoother.cpp:127-131 | every gathered neighbour is the far end of some marked incident edge |
| Meshes.MarkedNeighboursOrder | include/cinolib/smoother.cpp:127-131 | the scan keeps adjacency order: the far end of a marked edge at position k is gathered at position (number of marked edges before k) |
| Meshes.TwoMarkedNeighbours | include/cinolib/smoother.cpp:127-133 | with exactly two marked edges at positions i < j, `nbrs.front()` is the far end of edge i and `nbrs.back()` that of edge j |
| Meshes.MarkedNeighboursMatchCount | include/cinolib/smoother.cpp:127-131 | the neighbour-gathering scan of the feature-line builder finds exactly as many neighbours as the counting scan of the labeller counts marked edges |
| Meshes.MarkedNeighboursBounded | include/cinolib/smoother.cpp:128-131 | every gathered neighbour is a vertex of the mesh |
| Meshes.NeighbourPositions | include/cinolib/smoother.cpp:127-131 | one position per marked incident edge: the k-th is the position of the k-th gathered neighbour, which is a vertex of the mesh |
| Labels.LabelFeaturesSatisfyTopology | include/cinolib/smoother.cpp:127-132 | every vertex labelled FEATURE has exactly two marked neighbours, so the `nbrs.size()==2` assertion never fires on the labeller's output |
| Labels.LabelsIgnorePositions | include/cinolib/smoother.cpp:253-255 | labels depend only on the edge marking; computing them once before the loop equals recomputing them after every position update |
| SparseSystem.Empty | include/cinolib/smoother.cpp:259-262 | an iteration starts from no rows, no triplets and no feature unknowns, with 3nv columns |
| SparseSystem.AddRow | include/cinolib/smoother.cpp:152-156 | a row is appended at the current row index: its triplets carry that index, one target and one weight are added, the counter advances by one, and nothing already present changes |
| SparseSystem.AppendRows | include/cinolib/smoother.cpp:96-109 | appending a list of rows adds exactly that many rows, keeps every triplet inside the matrix, and changes nothing already present |
| SparseSystem.AppendRowsContents | include/cinolib/smoother.cpp:96-109 | after appending a list of rows, the weights, targets and triplets are the old ones followed by those of the list, in order |
| SparseSystem.AppendRowsHold | include/cinolib/smoother.cpp:96-109 | appending rows that a vector satisfies keeps every row the vector satisfied satisfied |
| RowBuilders.LaplacianTerm | include/cinolib/smoother.cpp:48-67 | called on an empty system, it adds 3nv rows, each with weight `weight` and target 0; the Laplacian triplets are appended unchanged and, lacking row offsets, lie in the rows just added |
| RowBuilders.SmoothOnTangentSpace | include/cinolib/smoother.cpp:73-110 | a REGULAR vertex adds one row per incident face and no feature unknown |
| RowBuilders.TangentSpaceRows | include/cinolib/smoother.cpp:96-109 | the k-th added row is the tangent plane of the k-th face normal n: triplets (vid, n.x), (nv+vid, n.y), (2nv+vid, n.z), target n·p, weight `weight`; this holds for a zero normal too; three triplets per face in all |
| RowBuilders.RecordFeature | include/cinolib/smoother.cpp:149-150 | the vertex gets auxiliary column 3nv + (features recorded so far), which is one past the previous last column; the column count grows by one and no row changes |
| RowBuilders.SmoothOnTangentLine | include/cinolib/smoother.cpp:116-174 | for a FEATURE vertex with two marked neighbours and no slot yet: the slot recorded is the normalised neighbour difference with the next auxiliary column; four rows are added; earlier rows and slots are untouched |
| RowBuilders.TangentLineRows | include/cinolib/smoother.cpp:152-173 | the four added rows are p_new - t·dir = p per coordinate with weight `weight`, plus t = 0 with weight 1: seven triplets, on columns vid, nv+vid, 2nv+vid and t |
| Assembly.FeatureTangentDir | include/cinolib/smoother.cpp:127-134 | `RowBuilders.TangentDir` of a vertex whose marked edges sit at positions i < j is normalize(pos(far end of i) - pos(far end of j)) |
| RowBuilders.HoldCorner | include/cinolib/smoother.cpp:180-208 | a CORNER vertex adds three rows and no feature unknown |
| RowBuilders.CornerRows | include/cinolib/smoother.cpp:188-207 | the three rows pin x, y and z of the vertex to its current coordinates with weight `weight`, one triplet each |
| RestState.FaceTermsValue | include/cinolib/smoother.cpp:103-106 | the left-hand side of a tangent-plane row at a vector x is n · (the position x gives the vertex) |
| RestState.TangentSpaceHolds | include/cinolib/smoother.cpp:96-109 | every tangent-plane row holds when the vertex stays at its current position |
| RestState.LineHolds | include/cinolib/smoother.cpp:152-173 | the four feature rows hold when the vertex stays put and its t is 0 |
| RestState.TangentLineHolds | include/cinolib/smoother.cpp:116-174 | the slot record and the four feature rows of smooth_on_tangent_line hold when the vertex stays put and its new t is 0 |
| RestState.CornerHolds | include/cinolib/smoother.cpp:194-207 | the three corner rows hold when the vertex stays put |
| RestState.VisitHolds | include/cinolib/smoother.cpp:272-278 | whatever the label, the rows one dispatch adds hold at the rest position |
| RestState.BuildPrefixHolds | include/cinolib/smoother.cpp:270-279 | after any number of dispatches, every row past the smoothing rows holds at the rest vector |
| RestState.RestSatisfiesSystem | include/cinolib/smoother.cpp:264-286 | any vector that keeps every vertex in place with every t at 0 satisfies every row of the assembled matrix except the 3nv smoothing rows |
| RestState.ResidualsVanish | include/cinolib/smoother.cpp:281-286 | rows that hold, and rows of weight 0, add nothing to the weighted least-squares objective |
| RestState.RestExactWithoutSmoothing | include/cinolib/smoother.cpp:58-66 | with w_laplace = 0, every vector that keeps the vertices in place with every t at 0 makes every weighted residual of the assembled system 0; when the other weights are non-negative too, the unmoved mesh is then a least-squares solution of its own system |
| BuildSpec.FeatureSetSize | include/cinolib/smoother.cpp:268-281 | the number of feature slots equals the number of FEATURE vertices seen |
| BuildSpec.FeatureColumnsIncrease | include/cinolib/smoother.cpp:149-150 | FEATURE vertices get auxiliary columns in increasing vertex order, so no two share a column |
| BuildSpec.FeatureColumnsBounded | include/cinolib/smoother.cpp:149-150 | every auxiliary column lies in [3nv, 3nv + number of FEATURE vertices) |
| Assembly.Visit | include/cinolib/smoother.cpp:272-278 | it adds \|normals\|, 4 or 3 rows for REGULAR, FEATURE or CORNER; only FEATURE records a slot, with the tangent direction and the next column; nothing present changes |
| Assembly.VisitRows | include/cinolib/smoother.cpp:272-278 | the dispatch passes each builder its own weight: REGULAR rows are the tangent planes of the incident faces at w_regular, FEATURE rows the line rows on the next auxiliary column at w_feature, CORNER rows the three pins at w_corner |
| Assembly.SmoothingRows | include/cinolib/smoother.cpp:259-264 | the loop over vertices starts from the 3nv smoothing rows |
| Assembly.BuildPrefix | include/cinolib/smoother.cpp:270-279 | after the first n vertices: 3nv + Σ faces of REGULAR + 4·#FEATURE + 3·#CORNER rows (counted over those n); slots for exactly the FEATURE vertices among them, each with the column of the two-pass assignment; the smoothing rows untouched |
| Assembly.BuildThrough | include/cinolib/smoother.cpp:270-279 | the same totals and slots after vertex vid has been visited |
| Assembly.VisitKeepsShape | include/cinolib/smoother.cpp:272-278 | one dispatch adds to the row total exactly the rows its label is worth and records a slot exactly for a FEATURE vertex; it also shows that the builder's no-slot-yet assertion holds |
| Assembly.VisitKeepsSlots | include/cinolib/smoother.cpp:149-150 | the slot a FEATURE vertex receives during the loop is the one the two-pass assignment predicts |
| Assembly.BuildSystem | include/cinolib/smoother.cpp:255-281 | the matrix has 3nv + Σ faces of REGULAR + 4·#FEATURE + 3·#CORNER rows and 3nv + #FEATURE columns; \|feature_data\| is #FEATURE; every triplet lies inside the matrix; the FEATURE vertices, and only they, hold a slot |
| Assembly.BuildPrefixExtends | include/cinolib/smoother.cpp:270-279 | the loop only appends: the state after k vertices is a prefix of the state after any n ≥ k vertices, with the same feature slots |
| Assembly.VisitRowsKept | include/cinolib/smoother.cpp:272-278 | the rows one dispatch writes stay at the same rows and triplet positions, with the same weights and targets, in every later state |
| Assembly.BuildPrefixRowsOf | include/cinolib/smoother.cpp:270-279 | vertex v's rows start at row 3nv + (rows of vertices 0 .. v-1) and keep, in the final state, the content and weight its label's builder gave them, the FEATURE rows on column 3nv + #FEATURE before v |
| Assembly.BuildSystemRowsOf | include/cinolib/smoother.cpp:255-281 | in the assembled system of a mesh, a REGULAR vertex holds one tangent-plane row per incident face normal at w_regular, a FEATURE vertex the four line rows along its two marked neighbours at w_feature, a CORNER vertex three pins at w_corner, right after the rows of the vertices before it |
| Assembly.SmoothingRowsLead | include/cinolib/smoother.cpp:58-66 | the first 3nv rows of the assembled system carry weight w_laplace and target 0 |
| Smoother.Scatter | include/cinolib/smoother.cpp:288-310 | a REGULAR or CORNER vertex lands at the position the solution gives it; a FEATURE vertex lands at p + dir·t; the result is reprojected on the surface or on the feature curves when asked for |
| Smoother.ScatterKeepsFeaturesOnLine | include/cinolib/smoother.cpp:301-305 | without reprojection, a FEATURE vertex ends on the line through its old position along its recorded direction |
| Smoother.ScatterAtRest | include/cinolib/smoother.cpp:288-310 | scattering the rest vector without reprojection leaves every vertex where it is |
| Smoother.BuildSystemScatterReady | include/cinolib/smoother.cpp:281-303 | for a solution with one value per column, every `feature_data.at(vid)` finds its vertex and every index the scatter uses is in range |
| Smoother.Solution | include/cinolib/smoother.cpp:281-286 | the solve returns one value per column of the assembled matrix (the only promise made of the solver) |
| Smoother.SmoothIteration | include/cinolib/smoother.cpp:255-310 | an iteration changes positions only: same vertex count, same incident edges, same face normals |
| Smoother.IterationKeepsFeaturesOnLine | include/cinolib/smoother.cpp:127-150 | without reprojection, every FEATURE vertex ends the iteration on the line through its old position along the normalised difference of its two marked neighbours |
| Smoother.IterationPositions | include/cinolib/smoother.cpp:281-305 | after one iteration a REGULAR or CORNER vertex sits at the coordinates the solve of the assembled system (built with the Laplacian of the current mesh) gives it, reprojected with the surface query when asked; a FEATURE vertex sits at p + dir·t, with dir the normalized difference of its two marked neighbours and t the solution's value on its two-pass column, reprojected with the feature-curve query when asked |
| Smoother.IterationAtRest | include/cinolib/smoother.cpp:288-310 | if the solver returns the rest vector and reprojection is off, the iteration leaves the mesh unchanged |
| Smoother.Iterate | include/cinolib/smoother.cpp:255-311 | zero iterations return the mesh unchanged; any number keeps the topology and face normals, the labels computed before the loop stay those of the current mesh, and every FEATURE vertex keeps exactly two marked neighbours |
| Smoother.IterateLast | include/cinolib/smoother.cpp:255-311 | for iters > 0, the result is one SmoothIteration, with the labels computed before the loop, applied to the result of the first iters - 1 iterations |
| Smoother.MeshSmoother | include/cinolib/smoother.cpp:236-312 | with n_iters = 0 the mesh comes back unchanged; topology and face normals are kept and the input's labels are those of the result |
| Smoother.MeshSmootherLast | include/cinolib/smoother.cpp:253-311 | with n_iters > 0 the result is one SmoothIteration, with the labels of the input mesh, on the mesh the first n_iters - 1 iterations produce |

## Left out

- Octrees and `closest_point` (lines 240-251, 297 and 304): the octree build is not modelled. The two nearest-point queries are the parameters `srf` and `feat`, applied only when `reproject_on_target` is set.
- `laplacian_matrix_entries` (line 56): the Laplacian construction, uniform or cotangent, is not modelled. Its triplets are a parameter, required to lie inside the 3nv × 3nv coordinate block.
- `solve_weighted_least_squares` and the Eigen matrix (lines 281-286): the solve is a parameter. It is required only to return one value per column. `setFromTriplets` and the optimality of the solution are not modelled.
- `vec3d::normalize` (line 134): an uninterpreted parameter. Its behaviour on a zero vector is not modelled.
- Floating point: all arithmetic is exact over the reals.
- The `cout` warnings for zero-length normals and tangents (lines 99-102 and 136-139) are not modelled. The rows are emitted regardless, as in the code.
- `uint` arithmetic: row and column counters are unbounded, so overflow is not modelled.
- The `assert(false)` defaults of both switches (lines 277 and 308) are unreachable: a label has exactly three values.
- The feature-line builder's `assert`s (lines 132 and 142) are preconditions, not modelled failures.
- The `target` mesh is used only to build the surface octree, so it is not modelled.
- RowBuilders.LaplacianTerm: requires an empty system (row 0). The code adds no row or column offset (the TODO at line 56), so its triplets are right only when it is the first builder called, as it is in `mesh_smoother`.
- Smoother.ScatterKeepsFeaturesOnLine: proved only without reprojection. With it on, a FEATURE vertex is wherever the feature-curve query puts it.
- Smoother.IterationKeepsFeaturesOnLine: proved only without reprojection, for the same reason.
- The progress message `smooth iter #` printed at the start of each iteration (line 257) is not modelled: it is output only.
- Labels.LabelFeatures returns the labels instead of writing them into the mesh's vertex data (lines 225-227), and Smoother.MeshSmoother returns only the moved mesh, so the labels the code leaves on the caller's mesh are not part of its result. Smoother.MeshSmoother states that those labels are the ones the final mesh would get.

=== FILE: assembly.dfy ===
/** One BUILD phase of mesh_smoother: the smoothing term first, on an empty
    system, then one dispatch per vertex in increasing vertex order. */
module Assembly {
  import opened Geometry
  import opened Meshes
  import opened Labels
  import opened SparseSystem
  import opened RowBuilders
  import opened BuildSpec

  datatype LaplacianMode = Uniform | Cotangent

  datatype SmootherOptions = SmootherOptions(
    nIters: nat,
    laplacianMode: LaplacianMode,
    wLaplace: real,
    wRegular: real,
    wFeature: real,
    wCorner: real,
    reprojectOnTarget: bool)

  /** The switch of the build loop: exactly one builder per label. */
  function Visit(b: Builder, d: VertexData, vid: nat, opt: SmootherOptions, normalize: Vec3 -> Vec3): (r: Builder)
    requires Consistent(b) && vid < b.nv
    requires d.kind == Feature ==> |d.nbrs| == 2 && vid !in b.featureData
    ensures Consistent(r) && Extends(b, r) && r.row == b.row + RowsFor(d)
    ensures d.kind != Feature ==> r.featureData == b.featureData
    ensures d.kind == Feature ==> FeatureRecorded(b, r, vid, TangentDir(d.nbrs, normalize))
  {
    match d.kind
    case Regular => SmoothOnTangentSpace(b, vid, d.pos, d.normals, opt.wRegular)
    case Feature => SmoothOnTangentLine(b, vid, d.pos, d.nbrs, opt.wFeature, normalize)
    case Corner => HoldCorner(b, vid, d.pos, opt.wCorner)
  }

  /** What each label's rows say: a REGULAR vertex gets the tangent plane of
      every incident face at w_regular, a FEATURE vertex the four line rows on
      the next auxiliary column at w_feature, a CORNER vertex the three pin rows
      at w_corner. */
  lemma VisitRows(b: Builder, d: VertexData, vid: nat, opt: SmootherOptions, normalize: Vec3 -> Vec3)
    requires Consistent(b) && vid < b.nv
    requires d.kind == Feature ==> |d.nbrs| == 2 && vid !in b.featureData
    ensures d.kind == Regular ==>
              forall k :: 0 <= k < |d.normals| ==>
                FaceRowAt(b, Visit(b, d, vid, opt, normalize), k, vid, d.normals[k], d.pos, opt.wRegular)
    ensures d.kind == Feature ==>
              LineRowsAt(b, Visit(b, d, vid, opt, normalize), vid, 3 * b.nv + |b.featureData|,
                         TangentDir(d.nbrs, normalize), d.pos, opt.wFeature)
    ensures d.kind == Corner ==> CornerRowsAt(b, Visit(b, d, vid, opt, normalize), vid, d.pos, opt.wCorner)
  {
    match d.kind
    case Regular =>
      forall k | 0 <= k < |d.normals|
        ensures FaceRowAt(b, Visit(b, d, vid, opt, normalize), k, vid, d.normals[k], d.pos, opt.wRegular)
      {
        TangentSpaceRows(b, vid, d.pos, d.normals, opt.wRegular, k);
      }
    case Feature =>
      TangentLineRows(b, vid, d.pos, d.nbrs, opt.wFeature, normalize);
    case Corner =>
      CornerRows(b, vid, d.pos, opt.wCorner);
  }

  /** The state right after laplacian_term, at the start of the vertex loop. */
  function SmoothingRows(nv: nat, opt: SmootherOptions, lap: seq<Entry>): (r: Builder)
    requires LaplacianFits(lap, nv)
    ensures LaplacianAppended(Empty(nv), r, lap, opt.wLaplace)
  {
    LaplacianTerm(Empty(nv), lap, opt.wLaplace)
  }

  /** The build loop over the first n vertices. */
  function BuildPrefix(vs: seq<VertexData>, opt: SmootherOptions, lap: seq<Entry>,
                       normalize: Vec3 -> Vec3, n: nat): (r: Builder)
    requires Ready(vs, lap) && n <= |vs|
    ensures Consistent(r) && ShapeOf(r) == ExpectedShape(vs, n)
    ensures SlotsAssigned(vs, normalize, r.featureData)
    ensures Extends(SmoothingRows(|vs|, opt, lap), r)
    decreases n, 0
  {
    if n == 0 then SmoothingRows(|vs|, opt, lap) else BuildThrough(vs, opt, lap, normalize, n - 1)
  }

  /** The build loop up to and including vertex vid. */
  function BuildThrough(vs: seq<VertexData>, opt: SmootherOptions, lap: seq<Entry>,
                        normalize: Vec3 -> Vec3, vid: nat): (r: Builder)
    requires Ready(vs, lap) && vid < |vs|
    ensures Consistent(r) && ShapeOf(r) == ExpectedShape(vs, vid + 1)
    ensures SlotsAssigned(vs, normalize, r.featureData)
    ensures Extends(SmoothingRows(|vs|, opt, lap), r)
    decreases vid, 1
  {
    var b := BuildPrefix(vs, opt, lap, normalize, vid);
    VisitKeepsShape(vs, opt, normalize, vid, b);
    VisitKeepsSlots(vs, opt, normalize, vid, b);
    var r := Visit(b, vs[vid], vid, opt, normalize);
    ExtendsTransitive(SmoothingRows(|vs|, opt, lap), b, r);
    r
  }

  /** One turn of the build loop only appends: it extends the state it starts from. */
  lemma BuildThroughExtends(vs: seq<VertexData>, opt: SmootherOptions, lap: seq<Entry>,
                            normalize: Vec3 -> Vec3, vid: nat)
    requires Ready(vs, lap) && vid < |vs|
    ensures Extends(BuildPrefix(vs, opt, lap, normalize, vid), BuildThrough(vs, opt, lap, normalize, vid))
  {
    var b := BuildPrefix(vs, opt, lap, normalize, vid);
    VisitKeepsShape(vs, opt, normalize, vid, b);
    assert BuildThrough(vs, opt, lap, normalize, vid) == Visit(b, vs[vid], vid, opt, normalize);
  }

  /** One more turn keeps a state from k on a prefix of the running state. */
  lemma ExtendsStep(vs: seq<VertexData>, opt: SmootherOptions, lap: seq<Entry>,
                    normalize: Vec3 -> Vec3, k: nat, n: nat)
    requires Ready(vs, lap) && k < n <= |vs|
    requires Extends(BuildPrefix(vs, opt, lap, normalize, k), BuildPrefix(vs, opt, lap, normalize, n - 1))
    ensures Extends(BuildPrefix(vs, opt, lap, normalize, k), BuildPrefix(vs, opt, lap, normalize, n))
  {
    var b := BuildPrefix(vs, opt, lap, normalize, k);
    var c := BuildPrefix(vs, opt, lap, normalize, n - 1);
    var r := BuildThrough(vs, opt, lap, normalize, n - 1);
    BuildThroughExtends(vs, opt, lap, normalize, n - 1);
    ExtendsTransitive(b, c, r);
    assert BuildPrefix(vs, opt, lap, normalize, n) == r;
  }

  /** Later vertices only append: the state after k vertices is a prefix of the
      state after n >= k vertices. */
  lemma {:induction false} BuildPrefixExtends(vs: seq<VertexData>, opt: SmootherOptions, lap: seq<Entry>,
                                              normalize: Vec3 -> Vec3, k: nat, n: nat)
    requires Ready(vs, lap) && k <= n <= |vs|
    ensures Extends(BuildPrefix(vs, opt, lap, normalize, k), BuildPrefix(vs, opt, lap, normalize, n))
    decreases n
  {
    if k == n {
      ExtendsReflexive(BuildPrefix(vs, opt, lap, normalize, k));
    } else {
      BuildPrefixExtends(vs, opt, lap, normalize, k, n - 1);
      ExtendsStep(vs, opt, lap, normalize, k, n);
    }
  }

  /** The rows one dispatch adds stay where they are in any later state. */
  lemma VisitRowsKept(b: Builder, d: VertexData, vid: nat, opt: SmootherOptions, normalize: Vec3 -> Vec3,
                      c: Builder, r: Builder, col: nat)
    requires Consistent(b) && vid < b.nv && col == 3 * b.nv + |b.featureData|
    requires d.kind == Feature ==> |d.nbrs| == 2 && vid !in b.featureData
    requires c == Visit(b, d, vid, opt, normalize) && Extends(c, r)
    ensures d.kind == Regular ==>
              forall k :: 0 <= k < |d.normals| ==> FaceRowAt(b, r, k, vid, d.normals[k], d.pos, opt.wRegular)
    ensures d.kind == Feature ==>
              LineRowsIn(b, r, vid, col, TangentDir(d.nbrs, normalize), d.pos, opt.wFeature)
    ensures d.kind == Corner ==> CornerRowsIn(b, r, vid, d.pos, opt.wCorner)
  {
    VisitRows(b, d, vid, opt, normalize);
    match d.kind
    case Regular =>
      forall k | 0 <= k < |d.normals|
        ensures FaceRowAt(b, r, k, vid, d.normals[k], d.pos, opt.wRegular)
      {
        FaceRowKept(b, c, r, k, vid, d.normals[k], d.pos, opt.wRegular);
      }
    case Feature =>
      LineRowsKept(b, c, r, vid, col, TangentDir(d.nbrs, normalize), d.pos, opt.wFeature);
    case Corner =>
      CornerRowsKept(b, c, r, vid, d.pos, opt.wCorner);
  }

  /** Before vertex v the next auxiliary column is 3nv + (FEATURE vertices before v). */
  lemma NextColumn(vs: seq<VertexData>, opt: SmootherOptions, lap: seq<Entry>, normalize: Vec3 -> Vec3, v: nat)
    requires Ready(vs, lap) && v <= |vs|
    ensures 3 * BuildPrefix(vs, opt, lap, normalize, v).nv + |BuildPrefix(vs, opt, lap, normalize, v).featureData|
         == FeatureColumn(vs, v)
  {
    var b := BuildPrefix(vs, opt, lap, normalize, v);
    FeatureSetSize(vs, v);
    assert |b.featureData| == |b.featureData.Keys|;
  }

  /** Where vertex v's rows end up in the finished system: right after the rows
      of vertices 0 .. v - 1, with the content and weight of its label's
      builder. A REGULAR vertex has the tangent plane of every incident face at
      w_regular; a FEATURE vertex has the four line rows on the auxiliary column
      of the two-pass assignment at w_feature; a CORNER vertex has the three
      pins at w_corner. */
  lemma BuildPrefixRowsOf(vs: seq<VertexData>, opt: SmootherOptions, lap: seq<Entry>,
                          normalize: Vec3 -> Vec3, v: nat)
    requires Ready(vs, lap) && v < |vs|
    ensures BuildPrefix(vs, opt, lap, normalize, v).row == ExpectedRows(vs, v)
    ensures vs[v].kind == Regular ==>
              forall k :: 0 <= k < |vs[v].normals| ==>
                FaceRowAt(BuildPrefix(vs, opt, lap, normalize, v), BuildPrefix(vs, opt, lap, normalize, |vs|),
                          k, v, vs[v].normals[k], vs[v].pos, opt.wRegular)
    ensures vs[v].kind == Feature ==>
              LineRowsIn(BuildPrefix(vs, opt, lap, normalize, v), BuildPrefix(vs, opt, lap, normalize, |vs|),
                         v, FeatureColumn(vs, v), TangentDir(vs[v].nbrs, normalize), vs[v].pos, opt.wFeature)
    ensures vs[v].kind == Corner ==>
              CornerRowsIn(BuildPrefix(vs, opt, lap, normalize, v), BuildPrefix(vs, opt, lap, normalize, |vs|),
                           v, vs[v].pos, opt.wCorner)
  {
    ThroughExtendsToEnd(vs, opt, lap, normalize, v);
    ThroughRowsKept(vs, opt, lap, normalize, v, BuildPrefix(vs, opt, lap, normalize, |vs|));
  }

  /** The rows of turn v stay where they are in any state extending it. */
  lemma ThroughRowsKept(vs: seq<VertexData>, opt: SmootherOptions, lap: seq<Entry>,
                        normalize: Vec3 -> Vec3, v: nat, r: Builder)
    requires Ready(vs, lap) && v < |vs|
    requires Extends(BuildThrough(vs, opt, lap, normalize, v), r)
    ensures vs[v].kind == Regular ==>
              forall k :: 0 <= k < |vs[v].normals| ==>
                FaceRowAt(BuildPrefix(vs, opt, lap, normalize, v), r, k, v, vs[v].normals[k], vs[v].pos, opt.wRegular)
    ensures vs[v].kind == Feature ==>
              LineRowsIn(BuildPrefix(vs, opt, lap, normalize, v), r, v, FeatureColumn(vs, v),
                         TangentDir(vs[v].nbrs, normalize), vs[v].pos, opt.wFeature)
    ensures vs[v].kind == Corner ==> CornerRowsIn(BuildPrefix(vs, opt, lap, normalize, v), r, v, vs[v].pos, opt.wCorner)
  {
    ThroughIsVisit(vs, opt, lap, normalize, v);
    NextColumn(vs, opt, lap, normalize, v);
    VisitRowsKept(BuildPrefix(vs, opt, lap, normalize, v), vs[v], v, opt, normalize,
                  BuildThrough(vs, opt, lap, normalize, v), r, FeatureColumn(vs, v));
  }

  /** Turn v of the loop is the dispatch of vertex v on the state before it. */
  lemma ThroughIsVisit(vs: seq<VertexData>, opt: SmootherOptions, lap: seq<Entry>, normalize: Vec3 -> Vec3, v: nat)
    requires Ready(vs, lap) && v < |vs|
    ensures Consistent(BuildPrefix(vs, opt, lap, normalize, v)) && v < BuildPrefix(vs, opt, lap, normalize, v).nv
    ensures vs[v].kind == Feature ==> |vs[v].nbrs| == 2 && v !in BuildPrefix(vs, opt, lap, normalize, v).featureData
    ensures BuildThrough(vs, opt, lap, normalize, v)
         == Visit(BuildPrefix(vs, opt, lap, normalize, v), vs[v], v, opt, normalize)
  {
    VisitKeepsShape(vs, opt, normalize, v, BuildPrefix(vs, opt, lap, normalize, v));
  }

  /** The state right after vertex v is a prefix of the finished system. */
  lemma ThroughExtendsToEnd(vs: seq<VertexData>, opt: SmootherOptions, lap: seq<Entry>, normalize: Vec3 -> Vec3, v: nat)
    requires Ready(vs, lap) && v < |vs|
    ensures Extends(BuildThrough(vs, opt, lap, normalize, v), BuildPrefix(vs, opt, lap, normalize, |vs|))
  {
    BuildPrefixExtends(vs, opt, lap, normalize, v + 1, |vs|);
    assert BuildPrefix(vs, opt, lap, normalize, v + 1) == BuildThrough(vs, opt, lap, normalize, v);
  }

  /** One turn of the build loop keeps the shape: the visited vertex's rows are
      counted by its label, and only a FEATURE vertex gets a slot. */
  lemma VisitKeepsShape(vs: seq<VertexData>, opt: SmootherOptions, normalize: Vec3 -> Vec3, vid: nat, b: Builder)
    requires InputsOk(vs) && vid < |vs| && Consistent(b) && ShapeOf(b) == ExpectedShape(vs, vid)
    ensures vs[vid].kind == Feature ==> |vs[vid].nbrs| == 2 && vid !in b.featureData
    ensures ShapeOf(Visit(b, vs[vid], vid, opt, normalize)) == ExpectedShape(vs, vid + 1)
  {
    FeatureSetStep(vs, vid);
    var r := Visit(b, vs[vid], vid, opt, normalize);
    RowsStep(vs, vid, b.row, r.row);
  }

  /** One turn of the build loop keeps the slots: a FEATURE vertex is recorded
      with the column of the two-pass assignment. */
  lemma VisitKeepsSlots(vs: seq<VertexData>, opt: SmootherOptions, normalize: Vec3 -> Vec3, vid: nat, b: Builder)
    requires InputsOk(vs) && vid < |vs| && Consistent(b) && ShapeOf(b) == ExpectedShape(vs, vid)
    requires SlotsAssigned(vs, normalize, b.featureData)
    ensures vs[vid].kind == Feature ==> |vs[vid].nbrs| == 2 && vid !in b.featureData
    ensures SlotsAssigned(vs, normalize, Visit(b, vs[vid], vid, opt, normalize).featureData)
  {
    VisitKeepsShape(vs, opt, normalize, vid, b);
    FeatureSetSize(vs, vid);
    assert |b.featureData| == |b.featureData.Keys|;
  }

  /** What the build loop reads of vertex v of the mesh, given the labels. */
  function Gather(m: Mesh, labels: seq<Label>): (vs: seq<VertexData>)
    requires m.Valid() && FeatureTopologyOk(m, labels)
    ensures |vs| == m.NumVerts() && InputsOk(vs)
    ensures forall v :: 0 <= v < |vs| ==>
              && vs[v].kind == labels[v] && vs[v].pos == m.pos[v]
              && vs[v].normals == m.incidentNormals[v]
              && vs[v].nbrs == NeighbourPositions(m, v)
  {
    seq(m.NumVerts(), v requires 0 <= v < m.NumVerts() =>
      VertexData(labels[v], m.pos[v], m.incidentNormals[v], NeighbourPositions(m, v)))
  }

  /** The tangent direction of a vertex with exactly two marked edges, at
      positions i < j of its incidence list, is normalize(front - back) with
      front the far end of edge i and back the far end of edge j. */
  lemma FeatureTangentDir(m: Mesh, v: nat, i: nat, j: nat, normalize: Vec3 -> Vec3)
    requires m.Valid() && v < m.NumVerts()
    requires i < j < |m.incidentEdges[v]|
    requires m.incidentEdges[v][i].marked && m.incidentEdges[v][j].marked
    requires MarkedCount(m.incidentEdges[v]) == 2
    ensures |NeighbourPositions(m, v)| == 2
    ensures TangentDir(NeighbourPositions(m, v), normalize)
         == normalize(Sub(m.pos[m.incidentEdges[v][i].opposite], m.pos[m.incidentEdges[v][j].opposite]))
  {
    TwoMarkedNeighbours(m.incidentEdges[v], i, j);
  }

  /** One BUILD phase of mesh_smoother: the smoothing term, then every vertex
      dispatched on its label. The result is the matrix A with `row` rows and
      3nv + |feature_data| columns, every triplet inside it; its rows are the 3nv
      smoothing rows, one per incident face of each REGULAR vertex, four per
      FEATURE vertex and three per CORNER vertex; the FEATURE vertices, and only
      they, hold a slot, with the column of the two-pass assignment. */
  function BuildSystem(m: Mesh, labels: seq<Label>, opt: SmootherOptions, lap: seq<Entry>,
                       normalize: Vec3 -> Vec3): (r: Builder)
    requires m.Valid() && FeatureTopologyOk(m, labels) && LaplacianFits(lap, m.NumVerts())
    ensures Consistent(r) && r.nv == m.NumVerts()
    ensures r.row == ExpectedRows(Gather(m, labels), m.NumVerts())
    ensures r.featureData.Keys == FeatureSet(Gather(m, labels), m.NumVerts())
    ensures |r.featureData| == CountLabel(Gather(m, labels), m.NumVerts(), Feature)
    ensures r.Cols() == 3 * m.NumVerts() + CountLabel(Gather(m, labels), m.NumVerts(), Feature)
    ensures SlotsAssigned(Gather(m, labels), normalize, r.featureData)
    ensures Extends(SmoothingRows(m.NumVerts(), opt, lap), r)
  {
    var vs := Gather(m, labels);
    var r := BuildPrefix(vs, opt, lap, normalize, |vs|);
    FeatureSetSize(vs, |vs|);
    assert |r.featureData| == |r.featureData.Keys|;
    r
  }

  /** Where the rows of mesh vertex v sit in the assembled system: after the
      rows of vertices 0 .. v - 1, exactly as its label's builder wrote them. A
      REGULAR vertex holds one tangent-plane row per incident face normal at
      w_regular; a FEATURE vertex the four line rows along the direction of its
      two marked neighbours, on the auxiliary column of the two-pass assignment,
      at w_feature; a CORNER vertex the three pins to its position at w_corner. */
  lemma BuildSystemRowsOf(m: Mesh, labels: seq<Label>, opt: SmootherOptions, lap: seq<Entry>,
                          normalize: Vec3 -> Vec3, v: nat)
    requires m.Valid() && FeatureTopologyOk(m, labels) && LaplacianFits(lap, m.NumVerts())
    requires v < m.NumVerts()
    ensures BuildPrefix(Gather(m, labels), opt, lap, normalize, v).row == ExpectedRows(Gather(m, labels), v)
    ensures labels[v] == Regular ==>
              forall k :: 0 <= k < |m.incidentNormals[v]| ==>
                FaceRowAt(BuildPrefix(Gather(m, labels), opt, lap, normalize, v), BuildSystem(m, labels, opt, lap, normalize),
                          k, v, m.incidentNormals[v][k], m.pos[v], opt.wRegular)
    ensures labels[v] == Feature ==>
              LineRowsIn(BuildPrefix(Gather(m, labels), opt, lap, normalize, v), BuildSystem(m, labels, opt, lap, normalize),
                         v, FeatureColumn(Gather(m, labels), v), TangentDir(NeighbourPositions(m, v), normalize),
                         m.pos[v], opt.wFeature)
    ensures labels[v] == Corner ==>
              CornerRowsIn(BuildPrefix(Gather(m, labels), opt, lap, normalize, v), BuildSystem(m, labels, opt, lap, normalize),
                           v, m.pos[v], opt.wCorner)
  {
    var vs := Gather(m, labels);
    BuildPrefixRowsOf(vs, opt, lap, normalize, v);
    assert vs[v] == VertexData(labels[v], m.pos[v], m.incidentNormals[v], NeighbourPositions(m, v));
  }

  /** The first 3nv rows of the assembled system are the smoothing rows: weight
      w_laplace, target 0. */
  lemma SmoothingRowsLead(m: Mesh, labels: seq<Label>, opt: SmootherOptions, lap: seq<Entry>,
                          normalize: Vec3 -> Vec3, i: nat)
    requires m.Valid() && FeatureTopologyOk(m, labels) && LaplacianFits(lap, m.NumVerts())
    requires i < 3 * m.NumVerts()
    ensures i < |BuildSystem(m, labels, opt, lap, normalize).w|
    ensures BuildSystem(m, labels, opt, lap, normalize).w[i] == opt.wLaplace
    ensures BuildSystem(m, labels, opt, lap, normalize).rhs[i] == 0.0
  {
    var s := SmoothingRows(m.NumVerts(), opt, lap);
    var r := BuildSystem(m, labels, opt, lap, normalize);
    assert r.w[..|s.w|][i] == s.w[i];
    assert r.rhs[..|s.rhs|][i] == s.rhs[i];
  }
}

=== FILE: buildspec.dfy ===
/** What one BUILD phase must produce, stated independently of how the row
    builders produce it: the row total per label, the feature vertices, and
    the column each feature vertex gets under the two-pass assignment (count
    the FEATURE vertices, then hand out auxiliary columns by increasing id).

    The build loop only reads the mesh, so it is described over the data it
    reads for each vertex, gathered once. */
module BuildSpec {
  import opened Geometry
  import opened Labels
  import opened SparseSystem
  import opened RowBuilders

  /** What the build loop reads for one vertex: its label (`kind`), its position, the
      normals of its incident faces and the positions of its marked neighbours. */
  datatype VertexData = VertexData(kind: Label, pos: Vec3, normals: seq<Vec3>, nbrs: seq<Vec3>)

  /** The feature-line builder finds exactly two neighbours at every FEATURE vertex. */
  predicate InputsOk(vs: seq<VertexData>) {
    forall v :: 0 <= v < |vs| && vs[v].kind == Feature ==> |vs[v].nbrs| == 2
  }

  /** The inputs of one BUILD phase fit together: usable vertex data and
      Laplacian triplets inside the coordinate block. */
  predicate Ready(vs: seq<VertexData>, lap: seq<Entry>) {
    InputsOk(vs) && LaplacianFits(lap, |vs|)
  }

  /** Number of vertices among the first n that carry label l. */
  function CountLabel(vs: seq<VertexData>, n: nat, l: Label): nat
    requires n <= |vs|
  {
    if n == 0 then 0 else CountLabel(vs, n - 1, l) + (if vs[n - 1].kind == l then 1 else 0)
  }

  /** Incident faces summed over the REGULAR vertices among the first n. */
  function FaceRowSum(vs: seq<VertexData>, n: nat): nat
    requires n <= |vs|
  {
    if n == 0 then 0
    else FaceRowSum(vs, n - 1) + (if vs[n - 1].kind == Regular then |vs[n - 1].normals| else 0)
  }

  /** Rows of the system once the first n vertices are visited:
      3nv smoothing rows, one per incident face of each REGULAR vertex,
      four per FEATURE vertex and three per CORNER vertex. */
  function ExpectedRows(vs: seq<VertexData>, n: nat): nat
    requires n <= |vs|
  {
    3 * |vs| + FaceRowSum(vs, n) + 4 * CountLabel(vs, n, Feature) + 3 * CountLabel(vs, n, Corner)
  }

  /** The rows the dispatcher adds for one vertex. */
  function RowsFor(d: VertexData): nat {
    match d.kind
    case Regular => |d.normals|
    case Feature => 4
    case Corner => 3
  }

  /** The auxiliary column the two-pass assignment hands to vertex v if it is a
      FEATURE vertex: 3nv + (number of FEATURE vertices with a smaller id). */
  function FeatureColumn(vs: seq<VertexData>, v: nat): nat
    requires v <= |vs|
  {
    3 * |vs| + CountLabel(vs, v, Feature)
  }

  /** The two-pass column assignment: the FEATURE vertex v gets auxiliary column
      3nv + (number of FEATURE vertices with a smaller id), and the tangent
      direction of its two marked neighbours. */
  function FeatureSlotOf(vs: seq<VertexData>, normalize: Vec3 -> Vec3, v: nat): FeatureSlot
    requires InputsOk(vs) && v < |vs| && vs[v].kind == Feature
  {
    FeatureSlot(TangentDir(vs[v].nbrs, normalize), FeatureColumn(vs, v))
  }

  /** The FEATURE vertices among the first n. */
  function FeatureSet(vs: seq<VertexData>, n: nat): set<nat>
    requires n <= |vs|
  {
    set v: nat | v < n && vs[v].kind == Feature
  }

  /** Every recorded vertex is a FEATURE vertex carrying its tangent direction
      and the column of the two-pass assignment. */
  predicate SlotsAssigned(vs: seq<VertexData>, normalize: Vec3 -> Vec3, fd: map<nat, FeatureSlot>)
    requires InputsOk(vs)
  {
    forall v :: v in fd ==> v < |vs| && vs[v].kind == Feature && fd[v] == FeatureSlotOf(vs, normalize, v)
  }

  /** The bookkeeping figures of a system: vertex count, rows, and which
      vertices hold a feature slot. */
  datatype Shape = Shape(nv: nat, rows: nat, features: set<nat>)

  function ShapeOf(b: Builder): Shape {
    Shape(b.nv, b.row, b.featureData.Keys)
  }

  /** The shape once the loop has visited vertices 0 .. n - 1: 3nv smoothing
      rows, one per incident face of each REGULAR vertex, four per FEATURE
      vertex and three per CORNER vertex; a slot for each FEATURE vertex visited. */
  function ExpectedShape(vs: seq<VertexData>, n: nat): Shape
    requires n <= |vs|
  {
    Shape(|vs|, ExpectedRows(vs, n), FeatureSet(vs, n))
  }

  /** Visiting vertex vid adds its own rows to the running total. */
  lemma RowsStep(vs: seq<VertexData>, vid: nat, before: nat, after: nat)
    requires vid < |vs| && before == ExpectedRows(vs, vid) && after == before + RowsFor(vs[vid])
    ensures after == ExpectedRows(vs, vid + 1)
  {
  }

  /** Visiting vertex vid records it exactly when it is a FEATURE vertex. */
  lemma FeatureSetStep(vs: seq<VertexData>, vid: nat)
    requires vid < |vs|
    ensures vid !in FeatureSet(vs, vid)
    ensures FeatureSet(vs, vid + 1) == if vs[vid].kind == Feature then FeatureSet(vs, vid) + {vid} else FeatureSet(vs, vid)
  {
  }

  /** The number of slots is the number of FEATURE vertices. */
  lemma {:induction false} FeatureSetSize(vs: seq<VertexData>, n: nat)
    requires n <= |vs|
    ensures |FeatureSet(vs, n)| == CountLabel(vs, n, Feature)
  {
    if n > 0 {
      FeatureSetSize(vs, n - 1);
      FeatureSetStep(vs, n - 1);
    }
  }

  /** A vertex with label l before v is counted among the first v. */
  lemma {:induction false} CountLabelBelow(vs: seq<VertexData>, u: nat, v: nat, l: Label)
    requires u < v <= |vs| && vs[u].kind == l
    ensures CountLabel(vs, u, l) < CountLabel(vs, v, l)
  {
    if v > u + 1 {
      CountLabelBelow(vs, u, v - 1, l);
    }
  }

  /** The two-pass assignment hands out auxiliary columns by increasing vertex
      id: a FEATURE vertex with a smaller id gets a smaller column. In
      particular no two FEATURE vertices share a column. */
  lemma FeatureColumnsIncrease(vs: seq<VertexData>, normalize: Vec3 -> Vec3, fd: map<nat, FeatureSlot>, u: nat, v: nat)
    requires InputsOk(vs) && SlotsAssigned(vs, normalize, fd)
    requires u in fd && v in fd && u < v
    ensures fd[u].col < fd[v].col
  {
    CountLabelBelow(vs, u, v, Feature);
  }

  /** Every auxiliary column lies in [3nv, 3nv + number of FEATURE vertices). */
  lemma FeatureColumnsBounded(vs: seq<VertexData>, normalize: Vec3 -> Vec3, fd: map<nat, FeatureSlot>, v: nat)
    requires InputsOk(vs) && SlotsAssigned(vs, normalize, fd) && v in fd
    ensures 3 * |vs| <= fd[v].col < 3 * |vs| + CountLabel(vs, |vs|, Feature)
  {
    CountLabelBelow(vs, v, |vs|, Feature);
  }
}

=== FILE: geometry.dfy ===
/** Exact 3-D vector arithmetic over the reals, standing in for cinolib's `vec3d`.
    Floating-point rounding is not modelled: every operation here is exact. */
module Geometry {

  datatype Vec3 = Vec3(x: real, y: real, z: real)

  function Add(a: Vec3, b: Vec3): Vec3 {
    Vec3(a.x + b.x, a.y + b.y, a.z + b.z)
  }

  function Sub(a: Vec3, b: Vec3): Vec3 {
    Vec3(a.x - b.x, a.y - b.y, a.z - b.z)
  }

  function Scale(a: Vec3, s: real): Vec3 {
    Vec3(a.x * s, a.y * s, a.z * s)
  }

  function Dot(a: Vec3, b: Vec3): real {
    a.x * b.x + a.y * b.y + a.z * b.z
  }

  /** Moving a point by a zero multiple of any direction leaves it where it is. */
  lemma AddZeroMultiple(p: Vec3, d: Vec3)
    ensures Add(p, Scale(d, 0.0)) == p
  {
  }
}

=== FILE: labels.dfy ===
/** Vertex classification by feature topology (label_features). */
module Labels {
  import opened Meshes

  datatype Label = Regular | Feature | Corner

  /** The switch on the marked-edge count: 0 is regular, 2 is feature,
      every other count (an end point or a branch point) is a frozen corner. */
  function LabelOf(count: nat): (l: Label)
    ensures l == Regular <==> count == 0
    ensures l == Feature <==> count == 2
    ensures l == Corner <==> count != 0 && count != 2
  {
    match count
    case 0 => Regular
    case 2 => Feature
    case _ => Corner
  }

  /** One label per vertex, in vertex order. */
  function LabelFeatures(m: Mesh): (labels: seq<Label>)
    requires m.Valid()
    ensures |labels| == m.NumVerts()
    ensures forall v :: 0 <= v < |labels| ==>
              (labels[v] == Regular <==> MarkedCount(m.incidentEdges[v]) == 0)
              && (labels[v] == Feature <==> MarkedCount(m.incidentEdges[v]) == 2)
              && (labels[v] == Corner <==> MarkedCount(m.incidentEdges[v]) !in {0, 2})
  {
    seq(m.NumVerts(), v requires 0 <= v < m.NumVerts() => LabelOf(MarkedCount(m.incidentEdges[v])))
  }

  /** What the feature-line builder demands of a labelling: one label per vertex,
      and exactly two marked neighbours at every vertex labelled FEATURE. */
  predicate FeatureTopologyOk(m: Mesh, labels: seq<Label>)
    requires m.Valid()
  {
    && |labels| == m.NumVerts()
    && forall v :: 0 <= v < |labels| && labels[v] == Feature ==> |MarkedNeighbours(m.incidentEdges[v])| == 2
  }

  /** The classifier never labels a vertex FEATURE unless the feature-line
      builder can find its two neighbours. */
  lemma LabelFeaturesSatisfyTopology(m: Mesh)
    requires m.Valid()
    ensures FeatureTopologyOk(m, LabelFeatures(m))
  {
    var labels := LabelFeatures(m);
    forall v | 0 <= v < |labels| && labels[v] == Feature
      ensures |MarkedNeighbours(m.incidentEdges[v])| == 2
    {
      MarkedNeighboursMatchCount(m.incidentEdges[v]);
    }
  }

  /** The labelling depends only on the edge marking, not on positions or normals,
      so computing it once before the iteration loop is the same as recomputing it
      after every position update. */
  lemma LabelsIgnorePositions(m: Mesh, m': Mesh)
    requires m.Valid() && m'.Valid()
    requires m'.incidentEdges == m.incidentEdges
    ensures LabelFeatures(m') == LabelFeatures(m)
  {
  }
}

=== FILE: mesh.dfy ===
/** The part of a polygon mesh that the smoother reads: vertex positions,
    the edges incident to each vertex (with their feature mark and the vertex
    at their other end) and the normals of the faces incident to each vertex.
    Adjacency lists keep the mesh's own order, which matters for the tangent
    direction of a feature vertex. */
module Meshes {
  import opened Geometry

  datatype IncidentEdge = IncidentEdge(marked: bool, opposite: nat)

  datatype Mesh = Mesh(
    pos: seq<Vec3>,
    incidentEdges: seq<seq<IncidentEdge>>,
    incidentNormals: seq<seq<Vec3>>)
  {
    function NumVerts(): nat {
      |pos|
    }

    /** Every per-vertex list is present and every edge ends at a vertex of the mesh. */
    predicate Valid() {
      && |incidentEdges| == |pos|
      && |incidentNormals| == |pos|
      && forall v, k :: 0 <= v < |pos| && 0 <= k < |incidentEdges[v]| ==>
           incidentEdges[v][k].opposite < |pos|
    }
  }

  /** Number of marked edges in an incidence list (the counting loop of label_features). */
  function MarkedCount(es: seq<IncidentEdge>): (r: nat)
    ensures r <= |es|
    ensures r == 0 <==> forall k :: 0 <= k < |es| ==> !es[k].marked
  {
    if |es| == 0 then 0
    else MarkedCount(es[..|es| - 1]) + (if es[|es| - 1].marked then 1 else 0)
  }

  /** The vertices reached through marked edges, in incidence order
      (the `nbrs` gathering loop of smooth_on_tangent_line). */
  function MarkedNeighbours(es: seq<IncidentEdge>): (r: seq<nat>)
    ensures forall i :: 0 <= i < |r| ==> exists k :: 0 <= k < |es| && es[k].marked && es[k].opposite == r[i]
  {
    if |es| == 0 then []
    else
      var front := MarkedNeighbours(es[..|es| - 1]);
      if es[|es| - 1].marked then front + [es[|es| - 1].opposite] else front
  }

  /** The two scans over an incidence list agree: as many neighbours are gathered
      as marked edges are counted. */
  lemma {:induction false} MarkedNeighboursMatchCount(es: seq<IncidentEdge>)
    ensures |MarkedNeighbours(es)| == MarkedCount(es)
  {
    if |es| > 0 {
      MarkedNeighboursMatchCount(es[..|es| - 1]);
    }
  }

  /** Every gathered neighbour is the far end of some incident edge. */
  lemma {:induction false} MarkedNeighboursBounded(es: seq<IncidentEdge>, n: nat)
    requires forall k :: 0 <= k < |es| ==> es[k].opposite < n
    ensures forall k :: 0 <= k < |MarkedNeighbours(es)| ==> MarkedNeighbours(es)[k] < n
  {
    if |es| > 0 {
      MarkedNeighboursBounded(es[..|es| - 1], n);
    }
  }

  /** Counting over a longer prefix never gives less. */
  lemma {:induction false} MarkedCountMonotone(es: seq<IncidentEdge>, a: nat, b: nat)
    requires a <= b <= |es|
    ensures MarkedCount(es[..a]) <= MarkedCount(es[..b])
    decreases b
  {
    if a < b {
      MarkedCountMonotone(es, a, b - 1);
      assert es[..b][..b - 1] == es[..b - 1];
    }
  }

  /** A marked edge at position k of the incidence list is gathered at position
      (number of marked edges before k): the scan keeps the incidence order. */
  lemma {:induction false} MarkedNeighboursOrder(es: seq<IncidentEdge>, k: nat)
    requires k < |es| && es[k].marked
    ensures MarkedCount(es[..k]) < |MarkedNeighbours(es)|
    ensures MarkedNeighbours(es)[MarkedCount(es[..k])] == es[k].opposite
  {
    var n := |es| - 1;
    MarkedNeighboursMatchCount(es[..n]);
    if k < n {
      MarkedNeighboursOrder(es[..n], k);
      assert es[..n][k] == es[k];
      assert es[..n][..k] == es[..k];
    }
  }

  /** With exactly two marked edges, at positions i < j, the scan gathers the far
      end of edge i first and that of edge j second. */
  lemma TwoMarkedNeighbours(es: seq<IncidentEdge>, i: nat, j: nat)
    requires i < j < |es| && es[i].marked && es[j].marked && MarkedCount(es) == 2
    ensures MarkedNeighbours(es) == [es[i].opposite, es[j].opposite]
  {
    MarkedNeighboursMatchCount(es);
    MarkedNeighboursOrder(es, i);
    MarkedNeighboursOrder(es, j);
    MarkedCountMonotone(es, i + 1, j);
    assert es[..i + 1][..i] == es[..i];
    assert MarkedCount(es[..i]) == 0 && MarkedCount(es[..j]) == 1;
  }

  /** The positions of the vertices reached from vid through marked edges. */
  function NeighbourPositions(m: Mesh, vid: nat): (r: seq<Vec3>)
    requires m.Valid() && vid < m.NumVerts()
    ensures |r| == |MarkedNeighbours(m.incidentEdges[vid])|
    ensures forall k :: 0 <= k < |r| ==>
              && MarkedNeighbours(m.incidentEdges[vid])[k] < m.NumVerts()
              && r[k] == m.pos[MarkedNeighbours(m.incidentEdges[vid])[k]]
  {
    var nbrs := MarkedNeighbours(m.incidentEdges[vid]);
    MarkedNeighboursBounded(m.incidentEdges[vid], m.NumVerts());
    seq(|nbrs|, k requires 0 <= k < |nbrs| => m.pos[nbrs[k]])
  }
}

=== FILE: rest.dfy ===
/** The rest state of one BUILD phase: the vector that keeps every vertex where
    it is and every feature parameter t at 0. It meets every row except the
    3nv smoothing rows exactly, which is what makes each builder's rows
    "hold the vertex where it is" constraints. */
module RestState {
  import opened Geometry
  import opened Meshes
  import opened Labels
  import opened SparseSystem
  import opened RowBuilders
  import opened BuildSpec
  import opened Assembly

  /** The position of vertex v read from a solution vector x. */
  function PosAt(x: seq<real>, nv: nat, v: nat): Vec3 {
    Vec3(Coord(x, v), Coord(x, nv + v), Coord(x, 2 * nv + v))
  }

  /** x places every vertex at its current position and sets every column
      from 3nv on to 0. */
  predicate AtRest(vs: seq<VertexData>, x: seq<real>) {
    && (forall v :: 0 <= v < |vs| ==> PosAt(x, |vs|, v) == vs[v].pos)
    && (forall c :: 3 * |vs| <= c < |x| ==> x[c] == 0.0)
  }

  /** The rest vector with `cols` entries: coordinates first, zeros after. */
  function RestVector(vs: seq<VertexData>, cols: nat): (x: seq<real>)
    requires 3 * |vs| <= cols
    ensures |x| == cols && AtRest(vs, x)
  {
    var nv := |vs|;
    var x := seq(cols, c requires 0 <= c < cols =>
      if c < nv then vs[c].pos.x
      else if c < 2 * nv then vs[c - nv].pos.y
      else if c < 3 * nv then vs[c - 2 * nv].pos.z
      else 0.0);
    assert forall v :: 0 <= v < nv ==> PosAt(x, nv, v) == vs[v].pos by {
      forall v | 0 <= v < nv
        ensures PosAt(x, nv, v) == vs[v].pos
      {
        assert x[nv + v] == vs[v].pos.y;
        assert x[2 * nv + v] == vs[v].pos.z;
      }
    }
    x
  }

  lemma TermsValueOne(t: Term, x: seq<real>)
    ensures TermsValue([t], x) == t.coef * Coord(x, t.col)
  {
    assert [t][..0] == [];
  }

  lemma TermsValueTwo(s: Term, t: Term, x: seq<real>)
    ensures TermsValue([s, t], x) == s.coef * Coord(x, s.col) + t.coef * Coord(x, t.col)
  {
    assert [s, t][..1] == [s];
    TermsValueOne(s, x);
  }

  /** The tangent-plane row of normal n meets its target n . p at a vertex placed at p. */
  lemma FaceTermsValue(nv: nat, vid: nat, n: Vec3, x: seq<real>)
    ensures TermsValue(FaceTerms(nv, vid, n), x) == Dot(n, PosAt(x, nv, vid))
  {
    var ts := FaceTerms(nv, vid, n);
    assert ts[..2] == [Term(vid, n.x), Term(nv + vid, n.y)];
    TermsValueTwo(Term(vid, n.x), Term(nv + vid, n.y), x);
  }

  /** Every row smooth_on_tangent_space adds holds at a vector placing vid at p. */
  lemma TangentSpaceHolds(b: Builder, vid: nat, p: Vec3, normals: seq<Vec3>, weight: real, lo: nat, x: seq<real>)
    requires Consistent(b) && vid < b.nv && RowsHold(b, lo, x) && PosAt(x, b.nv, vid) == p
    ensures RowsHold(SmoothOnTangentSpace(b, vid, p, normals, weight), lo, x)
  {
    var specs := FaceSpecs(b.nv, vid, p, normals, weight);
    forall k | 0 <= k < |specs|
      ensures TermsValue(specs[k].terms, x) == specs[k].target
    {
      FaceTermsValue(b.nv, vid, normals[k], x);
    }
    AppendRowsHold(b, specs, lo, x);
  }

  /** The three rows of hold_corner hold at a vector placing vid at p. */
  lemma CornerHolds(b: Builder, vid: nat, p: Vec3, weight: real, lo: nat, x: seq<real>)
    requires Consistent(b) && vid < b.nv && RowsHold(b, lo, x) && PosAt(x, b.nv, vid) == p
    ensures RowsHold(HoldCorner(b, vid, p, weight), lo, x)
  {
    var specs := CornerSpecs(b.nv, vid, p, weight);
    TermsValueOne(Term(vid, 1.0), x);
    TermsValueOne(Term(b.nv + vid, 1.0), x);
    TermsValueOne(Term(2 * b.nv + vid, 1.0), x);
    AppendRowsHold(b, specs, lo, x);
  }

  /** The four rows of a feature vertex hold at a vector placing vid at p with
      the vertex's parameter t at 0: p - 0 * dir = p, and t = 0. */
  lemma LineHolds(b: Builder, vid: nat, colT: nat, dir: Vec3, p: Vec3, weight: real, lo: nat, x: seq<real>)
    requires Consistent(b) && vid < b.nv && colT < b.Cols()
    requires RowsHold(b, lo, x) && PosAt(x, b.nv, vid) == p && Coord(x, colT) == 0.0
    ensures RowsHold(LineRows(b, vid, colT, dir, p, weight), lo, x)
  {
    var nv := b.nv;
    var specs := LineSpecs(nv, vid, colT, dir, p, weight);
    TermsValueTwo(Term(vid, 1.0), Term(colT, -dir.x), x);
    TermsValueTwo(Term(nv + vid, 1.0), Term(colT, -dir.y), x);
    TermsValueTwo(Term(2 * nv + vid, 1.0), Term(colT, -dir.z), x);
    TermsValueOne(Term(colT, 1.0), x);
    AppendRowsHold(b, specs, lo, x);
  }

  /** smooth_on_tangent_line only adds rows that hold at a vector placing vid
      at p with the new parameter column at 0. */
  lemma TangentLineHolds(b: Builder, vid: nat, p: Vec3, nbrs: seq<Vec3>, weight: real,
                         normalize: Vec3 -> Vec3, lo: nat, x: seq<real>)
    requires Consistent(b) && vid < b.nv && vid !in b.featureData && |nbrs| == 2
    requires RowsHold(b, lo, x) && PosAt(x, b.nv, vid) == p
    requires Coord(x, 3 * b.nv + |b.featureData|) == 0.0
    ensures RowsHold(SmoothOnTangentLine(b, vid, p, nbrs, weight, normalize), lo, x)
  {
    var dir := TangentDir(nbrs, normalize);
    var b0 := RecordFeature(b, vid, dir);
    var t := 3 * b.nv + |b.featureData|;
    TangentLineUnfold(b, vid, p, nbrs, weight, normalize);
    LineHolds(b0, vid, t, dir, p, weight, lo, x);
  }

  /** Whatever the label, the rows one dispatch of the build loop adds hold at
      a vector placing vid at its current position with the next auxiliary
      column at 0. */
  lemma VisitHolds(b: Builder, d: VertexData, vid: nat, opt: SmootherOptions, normalize: Vec3 -> Vec3,
                   lo: nat, x: seq<real>)
    requires Consistent(b) && vid < b.nv
    requires d.kind == Feature ==> |d.nbrs| == 2 && vid !in b.featureData
    requires RowsHold(b, lo, x) && PosAt(x, b.nv, vid) == d.pos
    requires Coord(x, 3 * b.nv + |b.featureData|) == 0.0
    ensures RowsHold(Visit(b, d, vid, opt, normalize), lo, x)
  {
    match d.kind
    case Regular =>
      TangentSpaceHolds(b, vid, d.pos, d.normals, opt.wRegular, lo, x);
    case Feature =>
      TangentLineHolds(b, vid, d.pos, d.nbrs, opt.wFeature, normalize, lo, x);
    case Corner =>
      CornerHolds(b, vid, d.pos, opt.wCorner, lo, x);
  }

  /** At rest, every column from 3nv on reads 0. */
  lemma RestAuxZero(vs: seq<VertexData>, x: seq<real>, c: nat)
    requires AtRest(vs, x) && 3 * |vs| <= c
    ensures Coord(x, c) == 0.0
  {
  }

  /** Rows i, i + 1, ... of b that are at least lo hold at x, stated row by row.
      This is RowsHold once more, as a recursion rather than a quantifier
      (HoldFromIff shows the two agree): carrying it through the induction over
      the build loop keeps each proof step small. */
  predicate HoldFrom(b: Builder, lo: nat, x: seq<real>, i: nat)
    requires |b.rhs| == b.row
    decreases b.row - i
  {
    i >= b.row || ((i < lo || RowValue(b.entries, i, x) == b.rhs[i]) && HoldFrom(b, lo, x, i + 1))
  }

  /** The row-by-row statement and the quantified one agree. */
  lemma {:induction false} HoldFromIff(b: Builder, lo: nat, x: seq<real>, i: nat)
    requires |b.rhs| == b.row
    ensures HoldFrom(b, lo, x, i) <==>
            forall j :: lo <= j < b.row && i <= j ==> RowValue(b.entries, j, x) == b.rhs[j]
    decreases b.row - i
  {
    if i < b.row {
      HoldFromIff(b, lo, x, i + 1);
    }
  }

  /** One turn of the build loop keeps every row from 3nv on holding at rest. */
  lemma ThroughHolds(vs: seq<VertexData>, opt: SmootherOptions, lap: seq<Entry>,
                     normalize: Vec3 -> Vec3, n: nat, x: seq<real>)
    requires Ready(vs, lap) && 0 < n <= |vs| && AtRest(vs, x)
    requires HoldFrom(BuildPrefix(vs, opt, lap, normalize, n - 1), 3 * |vs|, x, 0)
    ensures HoldFrom(BuildPrefix(vs, opt, lap, normalize, n), 3 * |vs|, x, 0)
  {
    var vid := n - 1;
    var b := BuildPrefix(vs, opt, lap, normalize, vid);
    var r := Visit(b, vs[vid], vid, opt, normalize);
    HoldFromIff(b, 3 * |vs|, x, 0);
    VisitKeepsShape(vs, opt, normalize, vid, b);
    RestAuxZero(vs, x, 3 * b.nv + |b.featureData|);
    VisitHolds(b, vs[vid], vid, opt, normalize, 3 * |vs|, x);
    HoldFromIff(r, 3 * |vs|, x, 0);
    assert BuildPrefix(vs, opt, lap, normalize, n) == r;
  }

  /** Before the vertex loop there is no row past the smoothing rows. */
  lemma StartHolds(vs: seq<VertexData>, opt: SmootherOptions, lap: seq<Entry>, x: seq<real>)
    requires LaplacianFits(lap, |vs|)
    ensures HoldFrom(SmoothingRows(|vs|, opt, lap), 3 * |vs|, x, 0)
  {
    HoldFromIff(SmoothingRows(|vs|, opt, lap), 3 * |vs|, x, 0);
  }

  /** Every row the vertex loop adds over the first n vertices holds at rest:
      the REGULAR, FEATURE and CORNER rows all say "stay where you are". */
  lemma {:induction false} BuildPrefixHolds(vs: seq<VertexData>, opt: SmootherOptions, lap: seq<Entry>,
                                            normalize: Vec3 -> Vec3, n: nat, x: seq<real>)
    requires Ready(vs, lap) && n <= |vs| && AtRest(vs, x)
    ensures HoldFrom(BuildPrefix(vs, opt, lap, normalize, n), 3 * |vs|, x, 0)
  {
    if n == 0 {
      StartHolds(vs, opt, lap, x);
    } else {
      BuildPrefixHolds(vs, opt, lap, normalize, n - 1, x);
      ThroughHolds(vs, opt, lap, normalize, n, x);
    }
  }

  /** Any vector that keeps every vertex where it is and every t at 0 meets
      every row of the assembled system past the 3nv smoothing rows exactly:
      the tangent-plane, tangent-line and corner rows only pull a vertex back
      to its current plane, line or position. */
  lemma RestSatisfiesSystem(m: Mesh, labels: seq<Label>, opt: SmootherOptions, lap: seq<Entry>,
                            normalize: Vec3 -> Vec3, x: seq<real>)
    requires m.Valid() && FeatureTopologyOk(m, labels) && LaplacianFits(lap, m.NumVerts())
    requires AtRest(Gather(m, labels), x)
    ensures RowsHold(BuildSystem(m, labels, opt, lap, normalize), 3 * m.NumVerts(), x)
  {
    var vs := Gather(m, labels);
    var r := BuildSystem(m, labels, opt, lap, normalize);
    BuildPrefixHolds(vs, opt, lap, normalize, |vs|, x);
    HoldFromIff(r, 3 * |vs|, x, 0);
  }

  /** What row i adds to the weighted least-squares objective at x:
      its weight times its squared residual. */
  function WeightedResidual(b: Builder, i: nat, x: seq<real>): real
    requires |b.w| == b.row && |b.rhs| == b.row && i < b.row
  {
    var e := RowValue(b.entries, i, x) - b.rhs[i];
    b.w[i] * e * e
  }

  /** Rows from lo on that hold, and rows below lo of weight 0, all contribute
      0 to the objective. */
  lemma ResidualsVanish(b: Builder, lo: nat, x: seq<real>)
    requires |b.w| == b.row && |b.rhs| == b.row && RowsHold(b, lo, x)
    requires forall i :: 0 <= i < lo && i < b.row ==> b.w[i] == 0.0
    ensures forall i :: 0 <= i < b.row ==> WeightedResidual(b, i, x) == 0.0
  {
    forall i | 0 <= i < b.row
      ensures WeightedResidual(b, i, x) == 0.0
    {
      if lo <= i {
        assert RowValue(b.entries, i, x) == b.rhs[i];
      }
    }
  }

  /** With w_laplace = 0 nothing pulls a vertex anywhere: every vector that
      keeps every vertex in place with every t at 0 makes every row of the
      assembled system contribute 0 to the objective. When w_regular, w_feature
      and w_corner are also non-negative no vector does better than 0, so the
      unperturbed mesh is then a least-squares solution of its own system. */
  lemma RestExactWithoutSmoothing(m: Mesh, labels: seq<Label>, opt: SmootherOptions, lap: seq<Entry>,
                                  normalize: Vec3 -> Vec3, x: seq<real>)
    requires m.Valid() && FeatureTopologyOk(m, labels) && LaplacianFits(lap, m.NumVerts())
    requires opt.wLaplace == 0.0 && AtRest(Gather(m, labels), x)
    ensures forall i :: 0 <= i < BuildSystem(m, labels, opt, lap, normalize).row ==>
              WeightedResidual(BuildSystem(m, labels, opt, lap, normalize), i, x) == 0.0
  {
    var r := BuildSystem(m, labels, opt, lap, normalize);
    var nv := m.NumVerts();
    forall i | 0 <= i < 3 * nv && i < r.row
      ensures r.w[i] == 0.0
    {
      SmoothingRowsLead(m, labels, opt, lap, normalize, i);
    }
    RestSatisfiesSystem(m, labels, opt, lap, normalize, x);
    ResidualsVanish(r, 3 * nv, x);
  }
}

=== FILE: rows.dfy ===
/** The four row builders of the smoother. Each is a pure function from the
    builder state before the call to the builder state after it. The mesh
    data a builder reads for vertex vid (its position p, the normals of its
    incident faces, the positions of its marked neighbours) is passed in
    directly; the dispatcher in module Assembly reads it from the mesh. */
module RowBuilders {
  import opened Geometry
  import opened SparseSystem

  /** What the external Laplacian builder promises for a mesh of nv vertices
      and block size 3: every triplet lies in the 3nv x 3nv coordinate block. */
  predicate LaplacianFits(lap: seq<Entry>, nv: nat) {
    forall k :: 0 <= k < |lap| ==> lap[k].row < 3 * nv && lap[k].col < 3 * nv
  }

  function Repeat(v: real, n: nat): (s: seq<real>)
    ensures |s| == n && forall i :: 0 <= i < n ==> s[i] == v
  {
    seq(n, _ => v)
  }

  /** r is b with the smoothing term appended: the Laplacian triplets unchanged
      and in order, 3nv rows of weight `weight` and target 0, and every appended
      triplet inside the appended rows. */
  predicate LaplacianAppended(b: Builder, r: Builder, lap: seq<Entry>, weight: real) {
    && AddsRows(b, r, 3 * b.nv)
    && |r.w| == |b.w| + 3 * b.nv
    && (forall i :: b.row <= i < r.row ==> r.w[i] == weight && r.rhs[i] == 0.0)
    && r.entries == b.entries + lap
    && (forall k :: |b.entries| <= k < |r.entries| ==> b.row <= r.entries[k].row < r.row)
  }

  /** laplacian_term: the Laplacian triplets are appended without any row or
      column offset, then 3nv weights and 3nv zero targets. The triplets only
      land in the rows this call adds because the call is made on an empty
      system, so that is required here. */
  function LaplacianTerm(b: Builder, lap: seq<Entry>, weight: real): (r: Builder)
    requires Consistent(b) && b.row == 0
    requires LaplacianFits(lap, b.nv)
    ensures LaplacianAppended(b, r, lap, weight)
  {
    var extraRows := 3 * b.nv;
    var r := Builder(b.nv, b.row + extraRows, b.w + Repeat(weight, extraRows), b.entries + lap,
                     b.rhs + Repeat(0.0, extraRows), b.featureData);
    assert forall k :: 0 <= k < |lap| ==> r.entries[|b.entries| + k] == lap[k];
    r
  }

  /** The row of one incident face: the normal's components on the vertex's
      x, y and z columns. */
  function FaceTerms(nv: nat, vid: nat, n: Vec3): seq<Term> {
    [Term(vid, n.x), Term(nv + vid, n.y), Term(2 * nv + vid, n.z)]
  }

  /** The rows of a REGULAR vertex at p, one per incident face normal, in order:
      normal . p_new = normal . p with weight `weight`. */
  function FaceSpecs(nv: nat, vid: nat, p: Vec3, normals: seq<Vec3>, weight: real): (specs: seq<RowSpec>)
    ensures |specs| == |normals| && ThreeTerms(specs) && SpecsFit(specs, 3 * nv + 3 * vid + 1)
  {
    seq(|normals|, k requires 0 <= k < |normals| => RowSpec(FaceTerms(nv, vid, normals[k]), Dot(normals[k], p), weight))
  }

  /** smooth_on_tangent_space: one tangent-plane row per incident face of a
      REGULAR vertex. A zero normal still yields its row. */
  function SmoothOnTangentSpace(b: Builder, vid: nat, p: Vec3, normals: seq<Vec3>, weight: real): (r: Builder)
    requires Consistent(b) && vid < b.nv
    ensures AddsRows(b, r, |normals|)
  {
    var specs := FaceSpecs(b.nv, vid, p, normals, weight);
    assert SpecsFit(specs, b.Cols());
    AppendRows(b, specs)
  }

  /** Row b.row + k of r is the tangent-plane row of normal n at p: three
      triplets on columns vid, nv + vid and 2nv + vid carrying n's components,
      target n . p, weight `weight`. */
  predicate FaceRowAt(b: Builder, r: Builder, k: nat, vid: nat, n: Vec3, p: Vec3, weight: real) {
    && b.row + k < |r.w| && b.row + k < |r.rhs| && |b.entries| + 3 * k + 2 < |r.entries|
    && r.w[b.row + k] == weight
    && r.rhs[b.row + k] == Dot(n, p)
    && r.entries[|b.entries| + 3 * k] == Entry(b.row + k, vid, n.x)
    && r.entries[|b.entries| + 3 * k + 1] == Entry(b.row + k, b.nv + vid, n.y)
    && r.entries[|b.entries| + 3 * k + 2] == Entry(b.row + k, 2 * b.nv + vid, n.z)
  }

  /** Rows appended later leave a tangent-plane row where it is. */
  lemma FaceRowKept(b: Builder, c: Builder, r: Builder, k: nat, vid: nat, n: Vec3, p: Vec3, weight: real)
    requires FaceRowAt(b, c, k, vid, n, p, weight) && Extends(c, r)
    ensures FaceRowAt(b, r, k, vid, n, p, weight)
  {
    assert r.w[b.row + k] == r.w[..|c.w|][b.row + k];
    assert r.rhs[b.row + k] == r.rhs[..|c.rhs|][b.row + k];
    var e := |b.entries| + 3 * k;
    assert r.entries[e] == r.entries[..|c.entries|][e];
    assert r.entries[e + 1] == r.entries[..|c.entries|][e + 1];
    assert r.entries[e + 2] == r.entries[..|c.entries|][e + 2];
  }

  /** The k-th row smooth_on_tangent_space adds is the tangent-plane row of the
      k-th incident face normal, whatever that normal's length; it adds three
      triplets per face and nothing else. */
  lemma TangentSpaceRows(b: Builder, vid: nat, p: Vec3, normals: seq<Vec3>, weight: real, k: nat)
    requires Consistent(b) && vid < b.nv && k < |normals|
    ensures |SmoothOnTangentSpace(b, vid, p, normals, weight).entries| == |b.entries| + 3 * |normals|
    ensures FaceRowAt(b, SmoothOnTangentSpace(b, vid, p, normals, weight), k, vid, normals[k], p, weight)
  {
    var specs := FaceSpecs(b.nv, vid, p, normals, weight);
    assert SpecsFit(specs, b.Cols());
    var r := AppendRows(b, specs);
    AppendRowsContents(b, specs);
    ThreeTermRowAt(b, r, specs, k);
    assert specs[k].terms == FaceTerms(b.nv, vid, normals[k]);
  }

  /** r is b with vid recorded: direction dir and the next free auxiliary column. */
  predicate FeatureRecorded(b: Builder, r: Builder, vid: nat, dir: Vec3) {
    && Consistent(r)
    && Extends(b, r)
    && r.featureData == b.featureData[vid := FeatureSlot(dir, 3 * b.nv + |b.featureData|)]
    && |r.featureData| == |b.featureData| + 1
  }

  /** b and r hold the same rows and the same triplets. */
  predicate SameRows(b: Builder, r: Builder) {
    r.nv == b.nv && r.row == b.row && r.w == b.w && r.rhs == b.rhs && r.entries == b.entries
  }

  /** The `feature_data[vid] = (dir, col_t)` step; the column block grows by one. */
  function RecordFeature(b: Builder, vid: nat, dir: Vec3): (r: Builder)
    requires Consistent(b) && vid < b.nv && vid !in b.featureData
    ensures FeatureRecorded(b, r, vid, dir) && SameRows(b, r)
  {
    var fd := b.featureData[vid := FeatureSlot(dir, 3 * b.nv + |b.featureData|)];
    assert |fd| == |b.featureData| + 1;
    b.(featureData := fd)
  }

  /** The four rows of a feature vertex whose auxiliary column is colT: rows one
      to three put 1 on a coordinate column and -dir's component on t, with the
      current coordinate as target and weight `weight`; row four puts 1 on t
      with target 0 and weight 1 (it keeps the system well conditioned). */
  function LineSpecs(nv: nat, vid: nat, colT: nat, dir: Vec3, p: Vec3, weight: real): seq<RowSpec> {
    [ RowSpec([Term(vid, 1.0), Term(colT, -dir.x)], p.x, weight),
      RowSpec([Term(nv + vid, 1.0), Term(colT, -dir.y)], p.y, weight),
      RowSpec([Term(2 * nv + vid, 1.0), Term(colT, -dir.z)], p.z, weight),
      RowSpec([Term(colT, 1.0)], 0.0, 1.0) ]
  }

  function LineRows(b: Builder, vid: nat, colT: nat, dir: Vec3, p: Vec3, weight: real): (r: Builder)
    requires Consistent(b) && vid < b.nv && colT < b.Cols()
    ensures AddsRows(b, r, 4)
  {
    AppendRows(b, LineSpecs(b.nv, vid, colT, dir, p, weight))
  }

  /** The weights of the four feature rows: `weight` on the three coordinate
      rows, 1 on the row that keeps t small. */
  function LineWeights(weight: real): seq<real> {
    [weight, weight, weight, 1.0]
  }

  /** The targets of the four feature rows: the current coordinates, then 0. */
  function LineTargets(p: Vec3): seq<real> {
    [p.x, p.y, p.z, 0.0]
  }

  /** The seven triplets of the four feature rows placed at `row`. */
  function LineEntries(row: nat, nv: nat, vid: nat, colT: nat, dir: Vec3): seq<Entry> {
    [ Entry(row, vid, 1.0), Entry(row, colT, -dir.x),
      Entry(row + 1, nv + vid, 1.0), Entry(row + 1, colT, -dir.y),
      Entry(row + 2, 2 * nv + vid, 1.0), Entry(row + 2, colT, -dir.z),
      Entry(row + 3, colT, 1.0) ]
  }

  /** r is b followed by exactly the four rows of a feature vertex at row b.row. */
  predicate LineRowsAt(b: Builder, r: Builder, vid: nat, colT: nat, dir: Vec3, p: Vec3, weight: real) {
    && r.w == b.w + LineWeights(weight)
    && r.rhs == b.rhs + LineTargets(p)
    && r.entries == b.entries + LineEntries(b.row, b.nv, vid, colT, dir)
  }

  /** r holds the four rows of a feature vertex right after the rows of b,
      whatever follows them. */
  predicate LineRowsIn(b: Builder, r: Builder, vid: nat, colT: nat, dir: Vec3, p: Vec3, weight: real) {
    && b.row + 4 <= |r.w| && b.row + 4 <= |r.rhs| && |b.entries| + 7 <= |r.entries|
    && r.w[b.row..b.row + 4] == LineWeights(weight)
    && r.rhs[b.row..b.row + 4] == LineTargets(p)
    && r.entries[|b.entries|..|b.entries| + 7] == LineEntries(b.row, b.nv, vid, colT, dir)
  }

  /** Rows appended later leave the feature rows where they are. */
  lemma LineRowsKept(b: Builder, c: Builder, r: Builder, vid: nat, colT: nat, dir: Vec3, p: Vec3, weight: real)
    requires |b.w| == b.row && |b.rhs| == b.row
    requires LineRowsAt(b, c, vid, colT, dir, p, weight) && Extends(c, r)
    ensures LineRowsIn(b, r, vid, colT, dir, p, weight)
  {
    assert r.w[b.row..b.row + 4] == r.w[..|c.w|][b.row..b.row + 4];
    assert r.rhs[b.row..b.row + 4] == r.rhs[..|c.rhs|][b.row..b.row + 4];
    assert r.entries[|b.entries|..|b.entries| + 7] == r.entries[..|c.entries|][|b.entries|..|b.entries| + 7];
  }

  lemma RowEntriesOfOne(row: nat, t: Term)
    ensures RowEntries(row, [t]) == [Entry(row, t.col, t.coef)]
  {
  }

  lemma RowEntriesOfTwo(row: nat, s: Term, t: Term)
    ensures RowEntries(row, [s, t]) == [Entry(row, s.col, s.coef), Entry(row, t.col, t.coef)]
  {
  }

  /** The weights, targets and triplets of four rows written out. */
  lemma FourSpecs(row: nat, specs: seq<RowSpec>)
    requires |specs| == 4
    ensures Weights(specs) == [specs[0].weight, specs[1].weight, specs[2].weight, specs[3].weight]
    ensures Targets(specs) == [specs[0].target, specs[1].target, specs[2].target, specs[3].target]
    ensures SpecEntries(row, specs) == RowEntries(row, specs[0].terms) + RowEntries(row + 1, specs[1].terms)
                                      + RowEntries(row + 2, specs[2].terms) + RowEntries(row + 3, specs[3].terms)
  {
    var s3 := specs[3..];
    var s2 := specs[2..];
    var s1 := specs[1..];
    assert s3[1..] == [] && s3[0] == specs[3];
    assert s2[1..] == s3 && s2[0] == specs[2];
    assert s1[1..] == s2 && s1[0] == specs[1];
    assert Weights(s3) == [specs[3].weight] && Targets(s3) == [specs[3].target];
    assert SpecEntries(row + 3, s3) == RowEntries(row + 3, specs[3].terms);
    assert Weights(s2) == [specs[2].weight] + Weights(s3) && Targets(s2) == [specs[2].target] + Targets(s3);
    assert SpecEntries(row + 2, s2) == RowEntries(row + 2, specs[2].terms) + SpecEntries(row + 3, s3);
    assert Weights(s1) == [specs[1].weight] + Weights(s2) && Targets(s1) == [specs[1].target] + Targets(s2);
    assert SpecEntries(row + 1, s1) == RowEntries(row + 1, specs[1].terms) + SpecEntries(row + 2, s2);
  }

  /** Three rows written out. */
  lemma ThreeSpecs(row: nat, specs: seq<RowSpec>)
    requires |specs| == 3
    ensures Weights(specs) == [specs[0].weight, specs[1].weight, specs[2].weight]
    ensures Targets(specs) == [specs[0].target, specs[1].target, specs[2].target]
    ensures SpecEntries(row, specs) == RowEntries(row, specs[0].terms) + RowEntries(row + 1, specs[1].terms)
                                      + RowEntries(row + 2, specs[2].terms)
  {
    var s2 := specs[2..];
    var s1 := specs[1..];
    assert s2[1..] == [] && s2[0] == specs[2];
    assert s1[1..] == s2 && s1[0] == specs[1];
    assert Weights(s2) == [specs[2].weight] && Targets(s2) == [specs[2].target];
    assert SpecEntries(row + 2, s2) == RowEntries(row + 2, specs[2].terms);
    assert Weights(s1) == [specs[1].weight] + Weights(s2) && Targets(s1) == [specs[1].target] + Targets(s2);
    assert SpecEntries(row + 1, s1) == RowEntries(row + 1, specs[1].terms) + SpecEntries(row + 2, s2);
  }

  lemma LineRowsContents(b: Builder, vid: nat, colT: nat, dir: Vec3, p: Vec3, weight: real)
    requires Consistent(b) && vid < b.nv && colT < b.Cols()
    ensures LineRowsAt(b, LineRows(b, vid, colT, dir, p, weight), vid, colT, dir, p, weight)
  {
    var specs := LineSpecs(b.nv, vid, colT, dir, p, weight);
    AppendRowsContents(b, specs);
    LineSpecEntries(b.nv, b.row, vid, colT, dir, p, weight);
  }

  /** The triplets of the four feature rows written out. */
  lemma LineSpecEntries(nv: nat, row: nat, vid: nat, colT: nat, dir: Vec3, p: Vec3, weight: real)
    ensures Weights(LineSpecs(nv, vid, colT, dir, p, weight)) == [weight, weight, weight, 1.0]
    ensures Targets(LineSpecs(nv, vid, colT, dir, p, weight)) == [p.x, p.y, p.z, 0.0]
    ensures SpecEntries(row, LineSpecs(nv, vid, colT, dir, p, weight)) == [
              Entry(row, vid, 1.0), Entry(row, colT, -dir.x),
              Entry(row + 1, nv + vid, 1.0), Entry(row + 1, colT, -dir.y),
              Entry(row + 2, 2 * nv + vid, 1.0), Entry(row + 2, colT, -dir.z),
              Entry(row + 3, colT, 1.0)]
  {
    var specs := LineSpecs(nv, vid, colT, dir, p, weight);
    FourSpecs(row, specs);
    RowEntriesOfTwo(row, Term(vid, 1.0), Term(colT, -dir.x));
    RowEntriesOfTwo(row + 1, Term(nv + vid, 1.0), Term(colT, -dir.y));
    RowEntriesOfTwo(row + 2, Term(2 * nv + vid, 1.0), Term(colT, -dir.z));
    RowEntriesOfOne(row + 3, Term(colT, 1.0));
  }

  lemma LineRowsSameBase(b: Builder, b': Builder, r: Builder, vid: nat, colT: nat, dir: Vec3, p: Vec3, weight: real)
    requires SameRows(b, b') && LineRowsAt(b, r, vid, colT, dir, p, weight)
    ensures LineRowsAt(b', r, vid, colT, dir, p, weight)
  {
  }

  /** The tangent direction of a FEATURE vertex: its first marked neighbour minus
      its second, passed through `normalize` (which is left uninterpreted). */
  function TangentDir(nbrs: seq<Vec3>, normalize: Vec3 -> Vec3): Vec3
    requires |nbrs| == 2
  {
    normalize(Sub(nbrs[0], nbrs[1]))
  }

  /** smooth_on_tangent_line: a FEATURE vertex at p with exactly two marked
      neighbours nbrs, not recorded yet, gets the next auxiliary column
      t = 3nv + (features recorded so far) recorded with its tangent direction,
      and the four rows of p_new = p + t * dir. */
  function SmoothOnTangentLine(b: Builder, vid: nat, p: Vec3, nbrs: seq<Vec3>, weight: real, normalize: Vec3 -> Vec3): (r: Builder)
    requires Consistent(b) && vid < b.nv && vid !in b.featureData
    requires |nbrs| == 2
    ensures FeatureRecorded(b, r, vid, TangentDir(nbrs, normalize)) && r.row == b.row + 4
  {
    var b0 := RecordFeature(b, vid, TangentDir(nbrs, normalize));
    var r := LineRows(b0, vid, 3 * b.nv + |b.featureData|, TangentDir(nbrs, normalize), p, weight);
    ExtendsTransitive(b, b0, r);
    r
  }

  /** smooth_on_tangent_line is the slot record followed by the four line rows. */
  lemma TangentLineUnfold(b: Builder, vid: nat, p: Vec3, nbrs: seq<Vec3>, weight: real, normalize: Vec3 -> Vec3)
    requires Consistent(b) && vid < b.nv && vid !in b.featureData
    requires |nbrs| == 2
    ensures SmoothOnTangentLine(b, vid, p, nbrs, weight, normalize)
         == LineRows(RecordFeature(b, vid, TangentDir(nbrs, normalize)), vid,
                     3 * b.nv + |b.featureData|, TangentDir(nbrs, normalize), p, weight)
  {
  }

  /** The rows smooth_on_tangent_line adds, written out. */
  lemma TangentLineRows(b: Builder, vid: nat, p: Vec3, nbrs: seq<Vec3>, weight: real, normalize: Vec3 -> Vec3)
    requires Consistent(b) && vid < b.nv && vid !in b.featureData
    requires |nbrs| == 2
    ensures LineRowsAt(b, SmoothOnTangentLine(b, vid, p, nbrs, weight, normalize), vid,
                       3 * b.nv + |b.featureData|, TangentDir(nbrs, normalize), p, weight)
  {
    var dir := TangentDir(nbrs, normalize);
    var t := 3 * b.nv + |b.featureData|;
    var b0 := RecordFeature(b, vid, dir);
    LineRowsContents(b0, vid, t, dir, p, weight);
    LineRowsSameBase(b0, b, LineRows(b0, vid, t, dir, p, weight), vid, t, dir, p, weight);
  }

  /** The three rows of a CORNER vertex: 1 on column vid, nv + vid and 2nv + vid
      in turn, the current coordinates as targets, weight `weight`. */
  function CornerSpecs(nv: nat, vid: nat, p: Vec3, weight: real): seq<RowSpec> {
    [ RowSpec([Term(vid, 1.0)], p.x, weight),
      RowSpec([Term(nv + vid, 1.0)], p.y, weight),
      RowSpec([Term(2 * nv + vid, 1.0)], p.z, weight) ]
  }

  /** The three triplets of the corner rows placed at `row`: one per coordinate. */
  function CornerEntries(row: nat, nv: nat, vid: nat): seq<Entry> {
    [Entry(row, vid, 1.0), Entry(row + 1, nv + vid, 1.0), Entry(row + 2, 2 * nv + vid, 1.0)]
  }

  /** r is b followed by exactly the three rows of a CORNER vertex at row b.row. */
  predicate CornerRowsAt(b: Builder, r: Builder, vid: nat, p: Vec3, weight: real) {
    && r.w == b.w + [weight, weight, weight]
    && r.rhs == b.rhs + [p.x, p.y, p.z]
    && r.entries == b.entries + CornerEntries(b.row, b.nv, vid)
  }

  /** r holds the three rows of a CORNER vertex right after the rows of b,
      whatever follows them. */
  predicate CornerRowsIn(b: Builder, r: Builder, vid: nat, p: Vec3, weight: real) {
    && b.row + 3 <= |r.w| && b.row + 3 <= |r.rhs| && |b.entries| + 3 <= |r.entries|
    && r.w[b.row..b.row + 3] == [weight, weight, weight]
    && r.rhs[b.row..b.row + 3] == [p.x, p.y, p.z]
    && r.entries[|b.entries|..|b.entries| + 3] == CornerEntries(b.row, b.nv, vid)
  }

  /** Rows appended later leave the corner rows where they are. */
  lemma CornerRowsKept(b: Builder, c: Builder, r: Builder, vid: nat, p: Vec3, weight: real)
    requires |b.w| == b.row && |b.rhs| == b.row
    requires CornerRowsAt(b, c, vid, p, weight) && Extends(c, r)
    ensures CornerRowsIn(b, r, vid, p, weight)
  {
    assert r.w[b.row..b.row + 3] == r.w[..|c.w|][b.row..b.row + 3];
    assert r.rhs[b.row..b.row + 3] == r.rhs[..|c.rhs|][b.row..b.row + 3];
    assert r.entries[|b.entries|..|b.entries| + 3] == r.entries[..|c.entries|][|b.entries|..|b.entries| + 3];
  }

  /** hold_corner: pin each coordinate of a CORNER vertex at p to its current value. */
  function HoldCorner(b: Builder, vid: nat, p: Vec3, weight: real): (r: Builder)
    requires Consistent(b) && vid < b.nv
    ensures AddsRows(b, r, 3)
  {
    AppendRows(b, CornerSpecs(b.nv, vid, p, weight))
  }

  lemma CornerRows(b: Builder, vid: nat, p: Vec3, weight: real)
    requires Consistent(b) && vid < b.nv
    ensures CornerRowsAt(b, HoldCorner(b, vid, p, weight), vid, p, weight)
  {
    AppendRowsContents(b, CornerSpecs(b.nv, vid, p, weight));
    CornerSpecEntries(b.nv, b.row, vid, p, weight);
  }

  /** The triplets of the three corner rows written out. */
  lemma CornerSpecEntries(nv: nat, row: nat, vid: nat, p: Vec3, weight: real)
    ensures Weights(CornerSpecs(nv, vid, p, weight)) == [weight, weight, weight]
    ensures Targets(CornerSpecs(nv, vid, p, weight)) == [p.x, p.y, p.z]
    ensures SpecEntries(row, CornerSpecs(nv, vid, p, weight)) == [
              Entry(row, vid, 1.0), Entry(row + 1, nv + vid, 1.0), Entry(row + 2, 2 * nv + vid, 1.0)]
  {
    var specs := CornerSpecs(nv, vid, p, weight);
    ThreeSpecs(row, specs);
    RowEntriesOfOne(row, Term(vid, 1.0));
    RowEntriesOfOne(row + 1, Term(nv + vid, 1.0));
    RowEntriesOfOne(row + 2, Term(2 * nv + vid, 1.0));
  }
}

=== FILE: smoother.dfy ===
/** mesh_smoother end to end: label once, then per iteration build the system,
    solve it, and scatter the solution back onto the vertices.

    Three computations are parameters rather than models: the Laplacian
    triplets of a mesh (`lapOf`), the weighted least-squares solve (`solve`)
    and the closest-point queries on the target surface and on the feature
    curves (`srf`, `feat`). */
module Smoother {
  import opened Geometry
  import opened Meshes
  import opened Labels
  import opened SparseSystem
  import opened RowBuilders
  import opened BuildSpec
  import opened Assembly
  import opened RestState

  /** The closest-point query is applied only when reprojection is on. */
  function Reproject(on: bool, closest: Vec3 -> Vec3, p: Vec3): Vec3 {
    if on then closest(p) else p
  }

  /** q lies on the line through p with direction d. */
  ghost predicate OnLine(q: Vec3, p: Vec3, d: Vec3) {
    exists t: real :: q == Add(p, Scale(d, t))
  }

  /** Every FEATURE vertex has a slot whose column the solution reaches, and the
      solution has all 3nv coordinates. */
  predicate ScatterReady(vs: seq<VertexData>, fd: map<nat, FeatureSlot>, res: seq<real>) {
    && 3 * |vs| <= |res|
    && forall v :: 0 <= v < |vs| && vs[v].kind == Feature ==> v in fd && fd[v].col < |res|
  }

  /** Where the scatter puts one vertex. */
  function NewPosition(vs: seq<VertexData>, fd: map<nat, FeatureSlot>, res: seq<real>, v: nat,
                       reproject: bool, srf: Vec3 -> Vec3, feat: Vec3 -> Vec3): Vec3
    requires ScatterReady(vs, fd, res) && v < |vs|
  {
    var nv := |vs|;
    match vs[v].kind
    case Feature =>
      Reproject(reproject, feat, Add(vs[v].pos, Scale(fd[v].dir, res[fd[v].col])))
    case _ =>
      Reproject(reproject, srf, Vec3(res[v], res[nv + v], res[2 * nv + v]))
  }

  /** The scatter loop: a REGULAR or CORNER vertex takes its three coordinates
      from the solution; a FEATURE vertex moves from its current position along
      its recorded direction by its parameter t. Either is then reprojected when
      asked for. Each vertex is written once and the FEATURE branch reads only
      its own position, so updating in place equals computing from the old
      positions. */
  function Scatter(vs: seq<VertexData>, fd: map<nat, FeatureSlot>, res: seq<real>,
                   reproject: bool, srf: Vec3 -> Vec3, feat: Vec3 -> Vec3): (ps: seq<Vec3>)
    requires ScatterReady(vs, fd, res)
    ensures |ps| == |vs|
    ensures forall v :: 0 <= v < |vs| && vs[v].kind != Feature ==>
              ps[v] == Reproject(reproject, srf, PosAt(res, |vs|, v))
    ensures forall v :: 0 <= v < |vs| && vs[v].kind == Feature ==>
              ps[v] == Reproject(reproject, feat, Add(vs[v].pos, Scale(fd[v].dir, Coord(res, fd[v].col))))
  {
    seq(|vs|, v requires 0 <= v < |vs| => NewPosition(vs, fd, res, v, reproject, srf, feat))
  }

  /** Without reprojection a FEATURE vertex stays on the line through its old
      position along its recorded direction. */
  lemma ScatterKeepsFeaturesOnLine(vs: seq<VertexData>, fd: map<nat, FeatureSlot>, res: seq<real>,
                                   srf: Vec3 -> Vec3, feat: Vec3 -> Vec3, v: nat)
    requires ScatterReady(vs, fd, res) && v < |vs| && vs[v].kind == Feature
    ensures OnLine(Scatter(vs, fd, res, false, srf, feat)[v], vs[v].pos, fd[v].dir)
  {
    var t := Coord(res, fd[v].col);
    assert Scatter(vs, fd, res, false, srf, feat)[v] == Add(vs[v].pos, Scale(fd[v].dir, t));
  }

  /** Scattering the rest vector without reprojection leaves every vertex where
      it is: coordinates are read back unchanged and every t is 0. */
  lemma ScatterAtRest(vs: seq<VertexData>, fd: map<nat, FeatureSlot>, res: seq<real>,
                      srf: Vec3 -> Vec3, feat: Vec3 -> Vec3)
    requires ScatterReady(vs, fd, res) && AtRest(vs, res)
    requires forall v :: v in fd ==> 3 * |vs| <= fd[v].col
    ensures forall v :: 0 <= v < |vs| ==> Scatter(vs, fd, res, false, srf, feat)[v] == vs[v].pos
  {
    var ps := Scatter(vs, fd, res, false, srf, feat);
    forall v | 0 <= v < |vs|
      ensures ps[v] == vs[v].pos
    {
      if vs[v].kind == Feature {
        RestAuxZero(vs, res, fd[v].col);
        AddZeroMultiple(vs[v].pos, fd[v].dir);
      }
    }
  }

  /** A solution that reaches every slot's column can be scattered when the
      slots are exactly the FEATURE vertices. */
  lemma SlotsReady(vs: seq<VertexData>, fd: map<nat, FeatureSlot>, res: seq<real>)
    requires fd.Keys == FeatureSet(vs, |vs|) && 3 * |vs| <= |res|
    requires forall v :: v in fd ==> fd[v].col < |res|
    ensures ScatterReady(vs, fd, res)
  {
    forall v | 0 <= v < |vs| && vs[v].kind == Feature
      ensures v in fd
    {
      assert v in FeatureSet(vs, |vs|);
    }
  }

  /** A solution sized to the system's columns can be scattered, and every
      slot's column lies past the coordinate block. */
  lemma BuildSystemScatterReady(m: Mesh, labels: seq<Label>, opt: SmootherOptions, lap: seq<Entry>,
                                normalize: Vec3 -> Vec3, res: seq<real>)
    requires m.Valid() && FeatureTopologyOk(m, labels) && LaplacianFits(lap, m.NumVerts())
    requires |res| == 3 * m.NumVerts() + CountLabel(Gather(m, labels), m.NumVerts(), Feature)
    ensures ScatterReady(Gather(m, labels), BuildSystem(m, labels, opt, lap, normalize).featureData, res)
    ensures forall v :: v in BuildSystem(m, labels, opt, lap, normalize).featureData ==>
              3 * m.NumVerts() <= BuildSystem(m, labels, opt, lap, normalize).featureData[v].col
  {
    var r := BuildSystem(m, labels, opt, lap, normalize);
    SlotsReady(Gather(m, labels), r.featureData, res);
  }

  /** The Laplacian oracle yields triplets inside the coordinate block of any valid mesh. */
  ghost predicate LaplacianOk(lapOf: (LaplacianMode, Mesh) -> seq<Entry>) {
    forall mode, m: Mesh :: m.Valid() ==> LaplacianFits(lapOf(mode, m), m.NumVerts())
  }

  /** The solver oracle returns one value per column of the system. */
  ghost predicate SolverOk(solve: Builder -> seq<real>) {
    forall b: Builder :: |solve(b)| == b.Cols()
  }

  /** The unknown vector the solver returns for one iteration's system. */
  function Solution(m: Mesh, labels: seq<Label>, opt: SmootherOptions, lapOf: (LaplacianMode, Mesh) -> seq<Entry>,
                    normalize: Vec3 -> Vec3, solve: Builder -> seq<real>): (res: seq<real>)
    requires m.Valid() && FeatureTopologyOk(m, labels) && LaplacianOk(lapOf) && SolverOk(solve)
    ensures |res| == BuildSystem(m, labels, opt, lapOf(opt.laplacianMode, m), normalize).Cols()
  {
    solve(BuildSystem(m, labels, opt, lapOf(opt.laplacianMode, m), normalize))
  }

  /** One iteration of mesh_smoother: build, solve, scatter. Only positions change. */
  function SmoothIteration(m: Mesh, labels: seq<Label>, opt: SmootherOptions,
                           lapOf: (LaplacianMode, Mesh) -> seq<Entry>, normalize: Vec3 -> Vec3,
                           solve: Builder -> seq<real>, srf: Vec3 -> Vec3, feat: Vec3 -> Vec3): (r: Mesh)
    requires m.Valid() && FeatureTopologyOk(m, labels) && LaplacianOk(lapOf) && SolverOk(solve)
    ensures r.Valid() && |r.pos| == |m.pos|
    ensures r.incidentEdges == m.incidentEdges && r.incidentNormals == m.incidentNormals
  {
    var lap := lapOf(opt.laplacianMode, m);
    var b := BuildSystem(m, labels, opt, lap, normalize);
    var res := Solution(m, labels, opt, lapOf, normalize, solve);
    BuildSystemScatterReady(m, labels, opt, lap, normalize, res);
    m.(pos := Scatter(Gather(m, labels), b.featureData, res, opt.reprojectOnTarget, srf, feat))
  }

  /** Where one iteration puts vertex v: the scatter of the solve of the system
      assembled for the current mesh. A REGULAR or CORNER vertex takes its
      three coordinates from the solution and is reprojected on the target
      surface; a FEATURE vertex moves from its position along the normalized
      difference of its two marked neighbours by the value of its auxiliary
      column, and is reprojected on the feature curves. */
  lemma IterationPositions(m: Mesh, labels: seq<Label>, opt: SmootherOptions,
                           lapOf: (LaplacianMode, Mesh) -> seq<Entry>, normalize: Vec3 -> Vec3,
                           solve: Builder -> seq<real>, srf: Vec3 -> Vec3, feat: Vec3 -> Vec3, v: nat)
    requires m.Valid() && FeatureTopologyOk(m, labels) && LaplacianOk(lapOf) && SolverOk(solve)
    requires v < m.NumVerts()
    ensures labels[v] != Feature ==>
              SmoothIteration(m, labels, opt, lapOf, normalize, solve, srf, feat).pos[v]
              == Reproject(opt.reprojectOnTarget, srf,
                           PosAt(solve(BuildSystem(m, labels, opt, lapOf(opt.laplacianMode, m), normalize)), m.NumVerts(), v))
    ensures labels[v] == Feature ==>
              && |NeighbourPositions(m, v)| == 2
              && SmoothIteration(m, labels, opt, lapOf, normalize, solve, srf, feat).pos[v]
                 == Reproject(opt.reprojectOnTarget, feat,
                              Add(m.pos[v], Scale(TangentDir(NeighbourPositions(m, v), normalize),
                                                  Coord(solve(BuildSystem(m, labels, opt, lapOf(opt.laplacianMode, m), normalize)),
                                                        FeatureColumn(Gather(m, labels), v)))))
  {
    var vs := Gather(m, labels);
    var lap := lapOf(opt.laplacianMode, m);
    var b := BuildSystem(m, labels, opt, lap, normalize);
    var res := Solution(m, labels, opt, lapOf, normalize, solve);
    BuildSystemScatterReady(m, labels, opt, lap, normalize, res);
    if labels[v] == Feature {
      assert v in FeatureSet(vs, |vs|);
      assert b.featureData[v] == FeatureSlotOf(vs, normalize, v);
    }
  }

  /** Without reprojection every FEATURE vertex ends the iteration on the line
      through its old position along the normalized difference of its two
      marked neighbours. */
  lemma IterationKeepsFeaturesOnLine(m: Mesh, labels: seq<Label>, opt: SmootherOptions,
                                     lapOf: (LaplacianMode, Mesh) -> seq<Entry>, normalize: Vec3 -> Vec3,
                                     solve: Builder -> seq<real>, srf: Vec3 -> Vec3, feat: Vec3 -> Vec3, v: nat)
    requires m.Valid() && FeatureTopologyOk(m, labels) && LaplacianOk(lapOf) && SolverOk(solve)
    requires !opt.reprojectOnTarget && v < m.NumVerts() && labels[v] == Feature
    ensures |NeighbourPositions(m, v)| == 2
    ensures OnLine(SmoothIteration(m, labels, opt, lapOf, normalize, solve, srf, feat).pos[v], m.pos[v],
                   TangentDir(NeighbourPositions(m, v), normalize))
  {
    var vs := Gather(m, labels);
    var lap := lapOf(opt.laplacianMode, m);
    var b := BuildSystem(m, labels, opt, lap, normalize);
    var res := Solution(m, labels, opt, lapOf, normalize, solve);
    BuildSystemScatterReady(m, labels, opt, lap, normalize, res);
    ScatterKeepsFeaturesOnLine(vs, b.featureData, res, srf, feat, v);
    assert v in FeatureSet(vs, |vs|);
    assert b.featureData[v] == FeatureSlotOf(vs, normalize, v);
  }

  /** If the solver returns the rest vector (every vertex where it is, every t
      at 0) and reprojection is off, the iteration leaves the mesh unchanged. */
  lemma IterationAtRest(m: Mesh, labels: seq<Label>, opt: SmootherOptions,
                        lapOf: (LaplacianMode, Mesh) -> seq<Entry>, normalize: Vec3 -> Vec3,
                        solve: Builder -> seq<real>, srf: Vec3 -> Vec3, feat: Vec3 -> Vec3)
    requires m.Valid() && FeatureTopologyOk(m, labels) && LaplacianOk(lapOf) && SolverOk(solve)
    requires !opt.reprojectOnTarget
    requires AtRest(Gather(m, labels), Solution(m, labels, opt, lapOf, normalize, solve))
    ensures SmoothIteration(m, labels, opt, lapOf, normalize, solve, srf, feat) == m
  {
    var lap := lapOf(opt.laplacianMode, m);
    var b := BuildSystem(m, labels, opt, lap, normalize);
    var res := Solution(m, labels, opt, lapOf, normalize, solve);
    BuildSystemScatterReady(m, labels, opt, lap, normalize, res);
    ScatterIdentity(m, Gather(m, labels), b.featureData, res, srf, feat);
  }

  /** The scatter of a rest vector, written back into the mesh it was read from,
      gives that mesh back. */
  lemma ScatterIdentity(m: Mesh, vs: seq<VertexData>, fd: map<nat, FeatureSlot>, res: seq<real>,
                        srf: Vec3 -> Vec3, feat: Vec3 -> Vec3)
    requires |vs| == |m.pos| && forall v :: 0 <= v < |vs| ==> vs[v].pos == m.pos[v]
    requires ScatterReady(vs, fd, res) && AtRest(vs, res)
    requires forall v :: v in fd ==> 3 * |vs| <= fd[v].col
    ensures m.(pos := Scatter(vs, fd, res, false, srf, feat)) == m
  {
    ScatterAtRest(vs, fd, res, srf, feat);
    assert Scatter(vs, fd, res, false, srf, feat) == m.pos;
  }

  /** `iters` iterations with the labels computed before the loop. Topology and
      face normals never change, so the labels stay what label_features would
      compute on the current mesh. */
  function Iterate(m: Mesh, labels: seq<Label>, opt: SmootherOptions, iters: nat,
                   lapOf: (LaplacianMode, Mesh) -> seq<Entry>, normalize: Vec3 -> Vec3,
                   solve: Builder -> seq<real>, srf: Vec3 -> Vec3, feat: Vec3 -> Vec3): (r: Mesh)
    requires m.Valid() && labels == LabelFeatures(m) && LaplacianOk(lapOf) && SolverOk(solve)
    ensures r.Valid() && |r.pos| == |m.pos|
    ensures r.incidentEdges == m.incidentEdges && r.incidentNormals == m.incidentNormals
    ensures LabelFeatures(r) == labels && FeatureTopologyOk(r, labels)
    ensures iters == 0 ==> r == m
    decreases iters
  {
    LabelFeaturesSatisfyTopology(m);
    if iters == 0 then m
    else
      var m1 := SmoothIteration(m, labels, opt, lapOf, normalize, solve, srf, feat);
      LabelsIgnorePositions(m, m1);
      Iterate(m1, labels, opt, iters - 1, lapOf, normalize, solve, srf, feat)
  }

  /** The loop peels iterations from the front; seen from the back, iteration
      number `iters` is one SmoothIteration on the mesh the first `iters - 1`
      iterations left, with the labels computed before the loop. */
  lemma {:induction false} IterateLast(m: Mesh, labels: seq<Label>, opt: SmootherOptions, iters: nat,
                                       lapOf: (LaplacianMode, Mesh) -> seq<Entry>, normalize: Vec3 -> Vec3,
                                       solve: Builder -> seq<real>, srf: Vec3 -> Vec3, feat: Vec3 -> Vec3)
    requires m.Valid() && labels == LabelFeatures(m) && LaplacianOk(lapOf) && SolverOk(solve)
    requires 0 < iters
    ensures Iterate(m, labels, opt, iters, lapOf, normalize, solve, srf, feat)
         == SmoothIteration(Iterate(m, labels, opt, iters - 1, lapOf, normalize, solve, srf, feat),
                            labels, opt, lapOf, normalize, solve, srf, feat)
    decreases iters
  {
    LabelFeaturesSatisfyTopology(m);
    var m1 := SmoothIteration(m, labels, opt, lapOf, normalize, solve, srf, feat);
    LabelsIgnorePositions(m, m1);
    if iters > 1 {
      IterateLast(m1, labels, opt, iters - 1, lapOf, normalize, solve, srf, feat);
    }
  }

  /** mesh_smoother: label the vertices once, then run n_iters iterations. */
  function MeshSmoother(m: Mesh, opt: SmootherOptions,
                        lapOf: (LaplacianMode, Mesh) -> seq<Entry>, normalize: Vec3 -> Vec3,
                        solve: Builder -> seq<real>, srf: Vec3 -> Vec3, feat: Vec3 -> Vec3): (r: Mesh)
    requires m.Valid() && LaplacianOk(lapOf) && SolverOk(solve)
    ensures r.Valid() && |r.pos| == |m.pos|
    ensures r.incidentEdges == m.incidentEdges && r.incidentNormals == m.incidentNormals
    ensures LabelFeatures(r) == LabelFeatures(m)
    ensures opt.nIters == 0 ==> r == m
  {
    Iterate(m, LabelFeatures(m), opt, opt.nIters, lapOf, normalize, solve, srf, feat)
  }

  /** With n_iters > 0 the result of mesh_smoother is one more SmoothIteration,
      with the labels of the input mesh, on what the first n_iters - 1
      iterations left; with n_iters = 0 it is the input itself. */
  lemma MeshSmootherLast(m: Mesh, opt: SmootherOptions,
                         lapOf: (LaplacianMode, Mesh) -> seq<Entry>, normalize: Vec3 -> Vec3,
                         solve: Builder -> seq<real>, srf: Vec3 -> Vec3, feat: Vec3 -> Vec3)
    requires m.Valid() && LaplacianOk(lapOf) && SolverOk(solve) && 0 < opt.nIters
    ensures MeshSmoother(m, opt, lapOf, normalize, solve, srf, feat)
         == SmoothIteration(Iterate(m, LabelFeatures(m), opt, opt.nIters - 1, lapOf, normalize, solve, srf, feat),
                            LabelFeatures(m), opt, lapOf, normalize, solve, srf, feat)
  {
    IterateLast(m, LabelFeatures(m), opt, opt.nIters, lapOf, normalize, solve, srf, feat);
  }
}

=== FILE: system.dfy ===
/** The shared state the row builders append to: a row counter, the triplet
    list of the sparse matrix, the parallel weight and right-hand-side
    sequences, and the map from feature vertex to its tangent direction and
    auxiliary column.

    Column layout for a mesh with nv vertices: x coordinates in [0, nv),
    y in [nv, 2nv), z in [2nv, 3nv), and one auxiliary column per recorded
    feature vertex from 3nv onwards. */
module SparseSystem {
  import opened Geometry

  /** One triplet of the sparse matrix. */
  datatype Entry = Entry(row: nat, col: nat, value: real)

  /** One coefficient of a row that is still to be placed. */
  datatype Term = Term(col: nat, coef: real)

  /** What a feature vertex records: its tangent direction and its auxiliary column. */
  datatype FeatureSlot = FeatureSlot(dir: Vec3, col: nat)

  datatype Builder = Builder(
    nv: nat,
    row: nat,
    w: seq<real>,
    entries: seq<Entry>,
    rhs: seq<real>,
    featureData: map<nat, FeatureSlot>)
  {
    /** Number of unknowns: three coordinates per vertex plus one per feature vertex. */
    function Cols(): nat {
      3 * nv + |featureData|
    }
  }

  /** The state at the start of an iteration: no rows, no entries, no features. */
  function Empty(nv: nat): (b: Builder)
    ensures Consistent(b) && b.row == 0 && b.Cols() == 3 * nv
    ensures b.nv == nv && b.entries == [] && b.featureData == map[]
  {
    Builder(nv, 0, [], [], [], map[])
  }

  /** The bookkeeping invariant every builder keeps:
      - one weight and one target per row;
      - every triplet addresses a row already counted and a column inside the layout;
      - feature vertices are vertices, and their auxiliary columns lie in the
        auxiliary block. */
  predicate Consistent(b: Builder) {
    && |b.w| == b.row
    && |b.rhs| == b.row
    && (forall k :: 0 <= k < |b.entries| ==> b.entries[k].row < b.row && b.entries[k].col < b.Cols())
    && (forall v :: v in b.featureData ==> v < b.nv && 3 * b.nv <= b.featureData[v].col < b.Cols())
  }

  /** b' is b with rows appended and features added: nothing already there changes. */
  predicate Extends(b: Builder, b': Builder) {
    && b'.nv == b.nv
    && b.row <= b'.row
    && |b.w| <= |b'.w| && b'.w[..|b.w|] == b.w
    && |b.rhs| <= |b'.rhs| && b'.rhs[..|b.rhs|] == b.rhs
    && |b.entries| <= |b'.entries| && b'.entries[..|b.entries|] == b.entries
    && (forall v :: v in b.featureData ==> v in b'.featureData && b'.featureData[v] == b.featureData[v])
  }

  /** r is b after a builder call that appended `rows` rows and left the
      feature map alone, keeping the bookkeeping invariant. */
  predicate AddsRows(b: Builder, r: Builder, rows: nat) {
    && Consistent(r)
    && Extends(b, r)
    && r.row == b.row + rows
    && r.featureData == b.featureData
  }

  lemma ExtendsReflexive(b: Builder)
    ensures Extends(b, b)
  {
    assert b.w[..|b.w|] == b.w && b.rhs[..|b.rhs|] == b.rhs && b.entries[..|b.entries|] == b.entries;
  }

  lemma ExtendsTransitive(b0: Builder, b1: Builder, b2: Builder)
    requires Extends(b0, b1) && Extends(b1, b2)
    ensures Extends(b0, b2)
  {
    assert b2.w[..|b0.w|] == b2.w[..|b1.w|][..|b0.w|];
    assert b2.rhs[..|b0.rhs|] == b2.rhs[..|b1.rhs|][..|b0.rhs|];
    assert b2.entries[..|b0.entries|] == b2.entries[..|b1.entries|][..|b0.entries|];
  }

  /** The triplets of one row. */
  function RowEntries(row: nat, terms: seq<Term>): (es: seq<Entry>)
    ensures |es| == |terms|
    ensures forall k :: 0 <= k < |es| ==> es[k] == Entry(row, terms[k].col, terms[k].coef)
  {
    seq(|terms|, k requires 0 <= k < |terms| => Entry(row, terms[k].col, terms[k].coef))
  }

  /** r holds exactly one more row than b: the terms at row b.row, the target and the weight. */
  predicate RowAppended(b: Builder, r: Builder, terms: seq<Term>, target: real, weight: real) {
    && r.w == b.w + [weight]
    && r.rhs == b.rhs + [target]
    && r.entries == b.entries + RowEntries(b.row, terms)
  }

  /** Append one row: its triplets at the current row index, its target and its
      weight, then advance the row counter (the push_back / ++row pattern every
      row builder repeats). */
  function AddRow(b: Builder, terms: seq<Term>, target: real, weight: real): (r: Builder)
    requires Consistent(b)
    requires forall k :: 0 <= k < |terms| ==> terms[k].col < b.Cols()
    ensures AddsRows(b, r, 1) && RowAppended(b, r, terms, target, weight)
  {
    var added := RowEntries(b.row, terms);
    var es := b.entries + added;
    assert forall k :: 0 <= k < |es| ==> es[k].row < b.row + 1 && es[k].col < b.Cols() by {
      forall k | 0 <= k < |es|
        ensures es[k].row < b.row + 1 && es[k].col < b.Cols()
      {
        if k >= |b.entries| {
          assert es[k] == added[k - |b.entries|];
        }
      }
    }
    Builder(b.nv, b.row + 1, b.w + [weight], es, b.rhs + [target], b.featureData)
  }

  /** One row still to be appended: its terms, its target and its weight. */
  datatype RowSpec = RowSpec(terms: seq<Term>, target: real, weight: real)

  /** Every term of every row lies inside the first `cols` columns. */
  predicate SpecsFit(specs: seq<RowSpec>, cols: nat) {
    forall i, k :: 0 <= i < |specs| && 0 <= k < |specs[i].terms| ==> specs[i].terms[k].col < cols
  }

  /** Append rows in order, one AddRow each: the shape every row builder has. */
  function AppendRows(b: Builder, specs: seq<RowSpec>): (r: Builder)
    requires Consistent(b) && SpecsFit(specs, b.Cols())
    ensures AddsRows(b, r, |specs|)
    decreases |specs|
  {
    if |specs| == 0 then b
    else
      var b1 := AddRow(b, specs[0].terms, specs[0].target, specs[0].weight);
      var r := AppendRows(b1, specs[1..]);
      ExtendsTransitive(b, b1, r);
      r
  }

  /** The weights of the rows, in order. */
  function Weights(specs: seq<RowSpec>): seq<real>
    decreases |specs|
  {
    if |specs| == 0 then [] else [specs[0].weight] + Weights(specs[1..])
  }

  /** The targets of the rows, in order. */
  function Targets(specs: seq<RowSpec>): seq<real>
    decreases |specs|
  {
    if |specs| == 0 then [] else [specs[0].target] + Targets(specs[1..])
  }

  /** The triplets of the rows, the first one at row `row`. */
  function SpecEntries(row: nat, specs: seq<RowSpec>): seq<Entry>
    decreases |specs|
  {
    if |specs| == 0 then [] else RowEntries(row, specs[0].terms) + SpecEntries(row + 1, specs[1..])
  }

  lemma SpecsFitTail(b: Builder, specs: seq<RowSpec>)
    requires Consistent(b) && |specs| > 0 && SpecsFit(specs, b.Cols())
    ensures SpecsFit(specs[1..], AddRow(b, specs[0].terms, specs[0].target, specs[0].weight).Cols())
  {
    forall i, k | 0 <= i < |specs[1..]| && 0 <= k < |specs[1..][i].terms|
      ensures specs[1..][i].terms[k].col < b.Cols()
    {
      assert specs[1..][i] == specs[i + 1];
    }
  }

  /** AppendRows adds exactly the rows described, in order: their weights,
      their targets and their triplets, numbered from b.row. */
  lemma {:induction false} AppendRowsContents(b: Builder, specs: seq<RowSpec>)
    requires Consistent(b) && SpecsFit(specs, b.Cols())
    ensures RowsAppended(b, AppendRows(b, specs), specs)
    decreases |specs|
  {
    if |specs| > 0 {
      var b1 := AddRow(b, specs[0].terms, specs[0].target, specs[0].weight);
      SpecsFitTail(b, specs);
      AppendRowsContents(b1, specs[1..]);
      RowsAppendedStep(b, b1, AppendRows(b1, specs[1..]), specs);
    }
  }

  /** r holds b's rows followed by the rows described, in order. */
  predicate RowsAppended(b: Builder, r: Builder, specs: seq<RowSpec>) {
    && r.w == b.w + Weights(specs)
    && r.rhs == b.rhs + Targets(specs)
    && r.entries == b.entries + SpecEntries(b.row, specs)
  }

  lemma RowsAppendedStep(b: Builder, b1: Builder, r: Builder, specs: seq<RowSpec>)
    requires |specs| > 0 && b1.row == b.row + 1
    requires RowAppended(b, b1, specs[0].terms, specs[0].target, specs[0].weight)
    requires RowsAppended(b1, r, specs[1..])
    ensures RowsAppended(b, r, specs)
  {
    assert b.w + [specs[0].weight] + Weights(specs[1..]) == b.w + ([specs[0].weight] + Weights(specs[1..]));
    assert b.rhs + [specs[0].target] + Targets(specs[1..]) == b.rhs + ([specs[0].target] + Targets(specs[1..]));
    var e0 := RowEntries(b.row, specs[0].terms);
    assert b.entries + e0 + SpecEntries(b.row + 1, specs[1..]) == b.entries + (e0 + SpecEntries(b.row + 1, specs[1..]));
  }

  // ---------------------------------------------------------------------
  // What a row means: the value of row i of the matrix at a vector x.

  /** x[c], with columns beyond the vector read as 0. */
  function Coord(x: seq<real>, c: nat): real {
    if c < |x| then x[c] else 0.0
  }

  function Contribution(e: Entry, i: nat, x: seq<real>): real {
    if e.row == i then e.value * Coord(x, e.col) else 0.0
  }

  /** Row i of the matrix the triplets describe, multiplied by x. Triplets that
      share a position add up, as they do when the sparse matrix is assembled. */
  function RowValue(es: seq<Entry>, i: nat, x: seq<real>): real {
    if |es| == 0 then 0.0
    else RowValue(es[..|es| - 1], i, x) + Contribution(es[|es| - 1], i, x)
  }

  /** The value of a row's terms at x. */
  function TermsValue(terms: seq<Term>, x: seq<real>): real {
    if |terms| == 0 then 0.0
    else TermsValue(terms[..|terms| - 1], x) + terms[|terms| - 1].coef * Coord(x, terms[|terms| - 1].col)
  }

  lemma {:induction false} RowValueAppend(a: seq<Entry>, b: seq<Entry>, i: nat, x: seq<real>)
    ensures RowValue(a + b, i, x) == RowValue(a, i, x) + RowValue(b, i, x)
  {
    if |b| > 0 {
      assert (a + b)[..|a + b| - 1] == a + b[..|b| - 1];
      RowValueAppend(a, b[..|b| - 1], i, x);
    } else {
      assert a + b == a;
    }
  }

  lemma {:induction false} RowValueElsewhere(es: seq<Entry>, i: nat, x: seq<real>)
    requires forall k :: 0 <= k < |es| ==> es[k].row != i
    ensures RowValue(es, i, x) == 0.0
  {
    if |es| > 0 {
      RowValueElsewhere(es[..|es| - 1], i, x);
    }
  }

  lemma {:induction false} RowValueOfRow(row: nat, terms: seq<Term>, x: seq<real>)
    ensures RowValue(RowEntries(row, terms), row, x) == TermsValue(terms, x)
  {
    if |terms| > 0 {
      assert RowEntries(row, terms)[..|terms| - 1] == RowEntries(row, terms[..|terms| - 1]);
      RowValueOfRow(row, terms[..|terms| - 1], x);
    }
  }

  /** Rows lo .. b.row - 1 hold at x: each row's value equals its target. */
  predicate RowsHold(b: Builder, lo: nat, x: seq<real>)
    requires |b.rhs| == b.row
  {
    forall i :: lo <= i < b.row ==> RowValue(b.entries, i, x) == b.rhs[i]
  }

  /** Appending a row whose terms meet their target at x keeps every earlier row
      holding at x, and the new row holds too. */
  lemma AddRowHolds(b: Builder, terms: seq<Term>, target: real, weight: real, lo: nat, x: seq<real>)
    requires Consistent(b)
    requires forall k :: 0 <= k < |terms| ==> terms[k].col < b.Cols()
    requires RowsHold(b, lo, x)
    requires TermsValue(terms, x) == target
    ensures RowsHold(AddRow(b, terms, target, weight), lo, x)
  {
    var r := AddRow(b, terms, target, weight);
    var added := RowEntries(b.row, terms);
    forall i | lo <= i < r.row
      ensures RowValue(r.entries, i, x) == r.rhs[i]
    {
      RowValueAppend(b.entries, added, i, x);
      if i < b.row {
        RowValueElsewhere(added, i, x);
      } else {
        RowValueElsewhere(b.entries, i, x);
        RowValueOfRow(b.row, terms, x);
      }
    }
  }

  /** Every described row meets its target at x. */
  predicate SpecsHold(specs: seq<RowSpec>, x: seq<real>) {
    forall i :: 0 <= i < |specs| ==> TermsValue(specs[i].terms, x) == specs[i].target
  }

  /** Appending rows that all meet their targets at x keeps every row from lo on holding at x. */
  lemma {:induction false} AppendRowsHold(b: Builder, specs: seq<RowSpec>, lo: nat, x: seq<real>)
    requires Consistent(b) && SpecsFit(specs, b.Cols())
    requires RowsHold(b, lo, x) && SpecsHold(specs, x)
    ensures RowsHold(AppendRows(b, specs), lo, x)
    decreases |specs|
  {
    if |specs| > 0 {
      var b1 := AddRow(b, specs[0].terms, specs[0].target, specs[0].weight);
      AddRowHolds(b, specs[0].terms, specs[0].target, specs[0].weight, lo, x);
      SpecsFitTail(b, specs);
      assert SpecsHold(specs[1..], x) by {
        forall i | 0 <= i < |specs[1..]|
          ensures TermsValue(specs[1..][i].terms, x) == specs[1..][i].target
        {
          assert specs[1..][i] == specs[i + 1];
        }
      }
      AppendRowsHold(b1, specs[1..], lo, x);
    }
  }

  // ---------------------------------------------------------------------
  // Reading the appended rows back one at a time.

  lemma {:induction false} WeightsAt(specs: seq<RowSpec>, k: nat)
    requires k < |specs|
    ensures |Weights(specs)| == |specs| && Weights(specs)[k] == specs[k].weight
    decreases |specs|
  {
    if k > 0 {
      WeightsAt(specs[1..], k - 1);
    } else if |specs| > 1 {
      WeightsAt(specs[1..], 0);
    }
  }

  lemma {:induction false} TargetsAt(specs: seq<RowSpec>, k: nat)
    requires k < |specs|
    ensures |Targets(specs)| == |specs| && Targets(specs)[k] == specs[k].target
    decreases |specs|
  {
    if k > 0 {
      TargetsAt(specs[1..], k - 1);
    } else if |specs| > 1 {
      TargetsAt(specs[1..], 0);
    }
  }

  /** Every row has three terms. */
  predicate ThreeTerms(specs: seq<RowSpec>) {
    forall i :: 0 <= i < |specs| ==> |specs[i].terms| == 3
  }

  /** When every row has three terms, triplet 3k + j belongs to row row + k and
      carries term j of the k-th row. */
  lemma {:induction false} SpecEntriesOfThree(row: nat, specs: seq<RowSpec>, k: nat, j: nat)
    requires ThreeTerms(specs) && k < |specs| && j < 3
    ensures |SpecEntries(row, specs)| == 3 * |specs|
    ensures SpecEntries(row, specs)[3 * k + j] == Entry(row + k, specs[k].terms[j].col, specs[k].terms[j].coef)
    decreases |specs|
  {
    var tail := specs[1..];
    assert ThreeTerms(tail) by {
      forall i | 0 <= i < |tail| ensures |tail[i].terms| == 3 {
        assert tail[i] == specs[i + 1];
      }
    }
    if |tail| > 0 {
      SpecEntriesOfThree(row + 1, tail, if k > 0 then k - 1 else 0, j);
    }
    if k > 0 {
      assert tail[k - 1] == specs[k];
    }
  }

  /** Term j of the k-th three-term row appended at b.row: where it sits in r. */
  predicate TermAt(b: Builder, r: Builder, specs: seq<RowSpec>, k: nat, j: nat)
    requires ThreeTerms(specs) && k < |specs| && j < 3
  {
    && |b.entries| + 3 * k + j < |r.entries|
    && r.entries[|b.entries| + 3 * k + j] == Entry(b.row + k, specs[k].terms[j].col, specs[k].terms[j].coef)
  }

  /** The k-th of a list of three-term rows appended at b.row is row b.row + k
      of r, with its weight, its target and its three triplets in place. */
  lemma ThreeTermRowAt(b: Builder, r: Builder, specs: seq<RowSpec>, k: nat)
    requires |b.w| == b.row && |b.rhs| == b.row
    requires RowsAppended(b, r, specs) && ThreeTerms(specs) && k < |specs|
    ensures |r.entries| == |b.entries| + 3 * |specs|
    ensures b.row + k < |r.w| && r.w[b.row + k] == specs[k].weight
    ensures b.row + k < |r.rhs| && r.rhs[b.row + k] == specs[k].target
    ensures TermAt(b, r, specs, k, 0) && TermAt(b, r, specs, k, 1) && TermAt(b, r, specs, k, 2)
  {
    WeightsAt(specs, k);
    TargetsAt(specs, k);
    var es := SpecEntries(b.row, specs);
    SpecEntriesOfThree(b.row, specs, k, 0);
    SpecEntriesOfThree(b.row, specs, k, 1);
    SpecEntriesOfThree(b.row, specs, k, 2);
    var base := |b.entries| + 3 * k;
    assert r.entries[base] == es[3 * k];
    assert r.entries[base + 1] == es[3 * k + 1];
    assert r.entries[base + 2] == es[3 * k + 2];
  }
}
